=== FILE: README.md ===
# tas-client, modelled in Dafny

This project models the core of `tas-client`, the client library of Microsoft's Treatment Assignment Service (TAS), together with the parts of `vscode-tas-client` that VS Code extensions use with it.

An experimentation service asks its feature providers for feature data:
- a list of flights;
- an assignment context string;
- a list of configs, each an Id with a flat object of treatment variables.

It merges the providers' answers into one in-memory snapshot and persists that snapshot to an optional key/value storage. It answers flight and treatment-variable queries from the snapshot, posting each queried key to telemetry once.

Fetching and polling work as follows:
- Fetch rounds are single-flight: a caller that finds a round pending joins it.
- A background round never replaces a snapshot that has already been read.
- A polling timer re-runs the fetch on an interval. A manual fetch stops and restarts that timer.

On the provider side:
- The TAS API provider turns the filters of its filter providers into request headers.
- It reports those headers to telemetry as JSON.
- It derives the flight list from the treatment variables of the configs it receives.
- The VS Code filter provider answers a fixed table of filter headers from the host environment.

How the model is built:
- Classes whose fields the source updates are Dafny classes. Their methods have `modifies` frames and are proved against specification functions: `Publish`, `Updated`, `Begun`, `Settled`, `Awaited` for the service, and `Merge` for a round.
- JavaScript `Map`s and objects are insertion-ordered association lists, in module `OrderedMaps`.
- A promise that settles is an `Outcome` (`Fulfilled(v)` or `Rejected`).
- What a provider, the HTTP client or the host returns is an input to the method that awaits it.

Modules, one per source file:

- `FeatureTypes`, `OrderedMaps`, `Wrappers`: the data and the collection semantics.
- `FeatureMerge`: the merge loop of `updateFeatures`.
- `ServiceBase`: `ExperimentationServiceBase`.
- `Polling`: `PollingService`.
- `AutoPolling`: `ExperimentationServiceAutoPolling`.
- `Service`: `ExperimentationService`.
- `BaseProvider`, `FilteredProvider`, `TasApi`: the provider hierarchy. Inheritance is modelled by composition: each subclass holds the state of the class it extends.
- `Json`: `JSON.stringify` of the headers object.
- `VSCodeFilters`: `VSCodeFilterProvider`.
- `TelemetryDisabled`: `TelemetryDisabledExperimentationService`.
- `Scenarios`: scenarios from the repository's tests, replayed on the model.

## Model

| member | source | states |
|---|---|---|
| OrderedMaps.FirstIndex | tas-client/src/tas-client/ExperimentationServiceBase.ts:148 | the index `find` stops at: an occurrence of `x` with no earlier one |
| OrderedMaps.FirstIndexUnique | tas-client/src/tas-client/ExperimentationServiceBase.ts:148 | any occurrence with no earlier occurrence is the one `find` returns |
| OrderedMaps.FirstIndexAppend | tas-client/src/tas-client/ExperimentationServiceBase.ts:148 | pushing an element keeps the first index of every element already present, and a new element is found at the old length |
| OrderedMaps.AppendNew | tas-client/src/tas-client/ExperimentationServiceBase.ts:141-146 | the includes-then-push loop keeps the old list as a prefix, adds only pushed elements, includes every pushed element, and never duplicates when the old list had no duplicates |
| OrderedMaps.AppendNewContains | tas-client/src/tas-client/ExperimentationServiceBase.ts:143-144 | an element is in the result iff it was in the old list or among the pushed ones |
| OrderedMaps.AppendNewConcat | tas-client/src/tas-client/ExperimentationServiceBase.ts:141-146 | pushing two runs one after the other equals pushing their concatenation, so the per-result loops compose |
| OrderedMaps.FirstIndexAppendOrder | tas-client/src/tas-client/ExperimentationServiceBase.ts:143-144 | pushing an element keeps the relative first-occurrence order of the elements already present |
| OrderedMaps.AppendNewFirstSeenOrder | tas-client/src/tas-client/ExperimentationServiceBase.ts:141-146 | the deduplicated list is ordered by first occurrence in the input |
| OrderedMaps.AppendNewNoDup | tas-client/src/tas-client/ExperimentationServiceBase.ts:143-144 | when nothing repeats, deduplication leaves the list unchanged |
| OrderedMaps.SetAllConcat | tas-client/src/tas-client/FeatureProvider/FilteredFeatureProvider.ts:26-34 | setting two runs of entries in turn equals setting their concatenation |
| OrderedMaps.KeysAppend | tas-client/src/tas-client/FeatureProvider/FilteredFeatureProvider.ts:32 | appending an entry appends its key to the key order |
| OrderedMaps.KeysPrefix | tas-client/src/tas-client/FeatureProvider/FilteredFeatureProvider.ts:28 | the keys of a prefix of entries are the prefix of the keys |
| OrderedMaps.SetKeys | tas-client/src/tas-client/FeatureProvider/FilteredFeatureProvider.ts:32 | `Map.set` keeps the key order and appends a new key at the end |
| OrderedMaps.GetSet | tas-client/src/tas-client/FeatureProvider/FilteredFeatureProvider.ts:31-32 | after a set, the key reads the new value and every other key reads what it read before |
| OrderedMaps.SetAllKeys | tas-client/src/tas-client/ExperimentationServiceBase.ts:150 | the keys of a spread are the old keys, then the new keys in first-seen order |
| OrderedMaps.SetAllGet | tas-client/src/tas-client/ExperimentationServiceBase.ts:150 | after a spread a key reads the last spread value for it, or the old value when the spread lacks it |
| OrderedMaps.UniqueGetIsLast | tas-client/src/tas-client/FeatureProvider/FilteredFeatureProvider.ts:31 | in a real map, the first entry for a key is also the last one |
| OrderedMaps.SetAllFresh | tas-client/src/tas-client/ExperimentationServiceBase.ts:150 | spreading entries whose keys are all new appends them in order |
| OrderedMaps.SetAllOntoEmpty | tas-client/src/tas-client/FeatureProvider/TasApiFeatureProvider.ts:35-38 | copying a real map into an empty object reproduces it exactly |
| OrderedMaps.SetAllUnique | tas-client/src/tas-client/ExperimentationServiceBase.ts:150 | a spread over a real map never creates a repeated key |
| OrderedMaps.LastValueConcat | tas-client/src/tas-client/FeatureProvider/FilteredFeatureProvider.ts:26-34 | the last value for a key over two runs comes from the second run when it has the key |
| FeatureTypes.FindConfig | tas-client/src/tas-client/ExperimentationServiceBase.ts:148 | `find` by Id gives a config iff the Id occurs, and then the first config with it |
| FeatureTypes.Lookup | tas-client/src/tas-client/ExperimentationServiceBase.ts:232-233 | an Id no config has gives undefined; otherwise the answer is the variable `name` of the first config with the Id, undefined when that config lacks it |
| FeatureTypes.Ids | tas-client/src/tas-client/ExperimentationServiceBase.ts:148 | the Id list has one entry per config, each the config's Id |
| FeatureTypes.Join | tas-client/src/tas-client/ExperimentationServiceBase.ts:42 | `join(';')` of no flights is empty and of one flight is that flight |
| FeatureTypes.JoinConcat | tas-client/src/tas-client/ExperimentationServiceBase.ts:42 | joining two non-empty flight lists is joining each, with one separator between the two |
| FeatureMerge.MergeConfig | tas-client/src/tas-client/ExperimentationServiceBase.ts:147-154 | merging one config adds its Id to the Id list only when the Id is new |
| FeatureMerge.PushNewFlights | tas-client/src/tas-client/ExperimentationServiceBase.ts:142-146 | the flights loop computes the includes-then-push deduplication of the incoming flights |
| FeatureMerge.MergeIncomingConfigs | tas-client/src/tas-client/ExperimentationServiceBase.ts:147-154 | the configs loop spreads each config over the first config with its Id or pushes it, matching `MergeConfigs` |
| FeatureMerge.MergeResults | tas-client/src/tas-client/ExperimentationServiceBase.ts:135-156 | the loop over provider results builds exactly the merged round `Merge` |
| FeatureMerge.MergeConfigsConcat | tas-client/src/tas-client/ExperimentationServiceBase.ts:141-154 | merging two runs of configs in turn equals merging their concatenation |
| FeatureMerge.AllFlightsContains | tas-client/src/tas-client/ExperimentationServiceBase.ts:141-142 | a flight is in the round's flight list iff some provider result lists it |
| FeatureMerge.MergedFlights | tas-client/src/tas-client/ExperimentationServiceBase.ts:141-146 | merged flights have no repeats, are exactly the flights some provider returned, and are ordered by first appearance over the providers in order |
| FeatureMerge.MergeConfigsIds | tas-client/src/tas-client/ExperimentationServiceBase.ts:147-154 | the merged Ids are the incoming Ids deduplicated in first-seen order |
| FeatureMerge.MergeConfigsIdsStep | tas-client/src/tas-client/ExperimentationServiceBase.ts:147-154 | one more config pushes its Id after the Ids merged so far |
| FeatureMerge.MergedConfigIdsUnique | tas-client/src/tas-client/ExperimentationServiceBase.ts:147-154 | after a round no two configs share an Id, and every incoming Id is present |
| FeatureMerge.MergeConfigLookup | tas-client/src/tas-client/ExperimentationServiceBase.ts:148-153 | after one config step a lookup reads the incoming variable when it defines one, and otherwise reads what it read before |
| FeatureMerge.MergeConfigsLookup | tas-client/src/tas-client/ExperimentationServiceBase.ts:147-154 | after a run of configs, a variable reads the last value written for it by a config with that Id, or else the accumulator's value |
| FeatureMerge.AllConfigsWellFormed | tas-client/src/tas-client/ExperimentationServiceBase.ts:147 | when every provider returns real parameter objects, so does the round's config list |
| FeatureMerge.MergedTreatmentValue | tas-client/src/tas-client/ExperimentationServiceBase.ts:147-154 | a merged treatment variable is the value written last, in provider order, by a config with that Id, and undefined when none has it |
| ServiceBase.EffectiveStorageKey | tas-client/src/tas-client/ExperimentationServiceBase.ts:55-57 | the key is never empty: a given non-empty key is kept, and otherwise it is `ABExp.Features` |
| ServiceBase.CachedSnapshot | tas-client/src/tas-client/ExperimentationServiceBase.ts:173-184 | nothing stored gives the empty snapshot; a stored entry keeps its flights and context, and missing configs become `[]` |
| ServiceBase.CachedSnapshotRestoresStored | tas-client/src/tas-client/ExperimentationServiceBase.ts:168-184 | loading back what `updateFeatures` persisted yields the persisted snapshot |
| ServiceBase.Persisted | tas-client/src/tas-client/ExperimentationServiceBase.ts:168-170 | with a storage, the key now loads back as the snapshot and every other key is untouched; without one, nothing is written |
| ServiceBase.RawKeyWriteMissesDefaultRead | tas-client/src/tas-client/ExperimentationServiceAutoPolling.ts:25 | with no key or `''`, the snapshot is written under that raw key, and nothing lands under the defaulted key the next service reads from |
| ServiceBase.Published | tas-client/src/tas-client/ExperimentationServiceBase.ts:36-45 | the setter shows the context under its property and the `;`-joined flights under theirs, and leaves other properties alone |
| ServiceBase.PublishedOverwrites | tas-client/src/tas-client/ExperimentationServiceBase.ts:41-44 | publishing twice leaves what the second publication wrote |
| ServiceBase.QueriedEvents | tas-client/src/tas-client/ExperimentationServiceBase.ts:265-268 | one `ABExp.queriedFeature` event per logged key, in order |
| ServiceBase.QueriedEventsPostedOnce | tas-client/src/tas-client/ExperimentationServiceBase.ts:258-274 | with a duplicate-free log, no key's event is posted twice |
| ServiceBase.SnapshotAfter | tas-client/src/tas-client/ExperimentationServiceBase.ts:161-163 | the merged round replaces the snapshot iff `overrideInMemoryFeatures` holds or the features have not been consumed |
| ServiceBase.Publish | tas-client/src/tas-client/ExperimentationServiceBase.ts:36-45 | the setter stores the snapshot and keeps the round-state invariant |
| ServiceBase.Updated | tas-client/src/tas-client/ExperimentationServiceBase.ts:130-171 | `updateFeatures` replaces the snapshot per `SnapshotAfter`, persists the merged round, changes nothing else, and keeps the invariant |
| ServiceBase.Begun | tas-client/src/tas-client/ExperimentationServiceBase.ts:79-103 | a pending round is joined unchanged; with no providers nothing starts; otherwise a round with the caller's flag and one slot per provider is pending |
| ServiceBase.Settled | tas-client/src/tas-client/ExperimentationServiceBase.ts:105-117 | settling clears the pending slot and the initial-fetch resolver; an all-fulfilled round updates snapshot and storage, a rejected one changes neither |
| ServiceBase.SettledConsistent | tas-client/src/tas-client/ExperimentationServiceBase.ts:112-117 | settling keeps the invariant and leaves `initialFetch` resolved exactly once |
| ServiceBase.AwaitedConsistent | tas-client/src/tas-client/ExperimentationServiceBase.ts:74-124 | an awaited fetch keeps the invariant |
| ServiceBase.BackgroundRoundKeepsConsumedSnapshot | tas-client/src/tas-client/ExperimentationServiceBase.ts:161-170 | a round without override leaves a consumed snapshot and its shared properties alone, yet persists a fulfilled round |
| ServiceBase.RejectedRoundKeepsSnapshot | tas-client/src/tas-client/ExperimentationServiceBase.ts:105-112 | one rejected provider leaves snapshot and storage unchanged, and the slot is still cleared |
| ServiceBase.JoinedRoundKeepsItsFlag | tas-client/src/tas-client/ExperimentationServiceBase.ts:79-86 | a caller that joins a pending round gets that round's outcome, with the round's own override flag |
| ServiceBase.NoProvidersNoRound | tas-client/src/tas-client/ExperimentationServiceBase.ts:88-94 | with no round pending and no provider registered, an awaited fetch changes nothing |
| ServiceBase.ExperimentationServiceBase.constructor | tas-client/src/tas-client/ExperimentationServiceBase.ts:47-68 | the key is defaulted and the state starts empty; without storage the load completes at once and publishes the empty snapshot |
| ServiceBase.ExperimentationServiceBase.ForPollingSubclass | tas-client/src/tas-client/ExperimentationServiceAutoPolling.ts:19-28 | the base as the polling subclass builds it with every `super` argument in its slot: the cache read is the storage's entry under the defaulted key, the load is pending iff there is a storage, and without one the empty snapshot is published at once; the subclass's parameter property then puts back the raw storage key, which `updateFeatures` writes under |
| ServiceBase.ExperimentationServiceBase.ShiftedByPollingSubclass | tas-client/src/tas-client/ExperimentationServiceAutoPolling.ts:19-28 | the base as the polling subclass's `super` call builds it, one argument short: no storage reaches the base, so nothing is read from the cache and the load is complete; the empty snapshot is published under the context and event names; the subclass then sets the names, the storage and the raw, possibly undefined, storage key |
| ServiceBase.ExperimentationServiceBase.SetFeatures | tas-client/src/tas-client/ExperimentationServiceBase.ts:36-45 | the setter's new state is `Publish` of the old one |
| ServiceBase.ExperimentationServiceBase.LoadCachedFeatureData | tas-client/src/tas-client/ExperimentationServiceBase.ts:173-185 | the cached snapshot is published only while the in-memory flight list is empty |
| ServiceBase.ExperimentationServiceBase.BeginFetch | tas-client/src/tas-client/ExperimentationServiceBase.ts:79-103 | the synchronous part of `getFeaturesAsync` moves the state to `Begun` and reports join, no-provider or start |
| ServiceBase.ExperimentationServiceBase.UpdateFeatures | tas-client/src/tas-client/ExperimentationServiceBase.ts:130-171 | the new state is `Updated` with the merged round |
| ServiceBase.ExperimentationServiceBase.SettleFetch | tas-client/src/tas-client/ExperimentationServiceBase.ts:105-123 | the continuation moves the state to `Settled` and returns the in-memory snapshot |
| ServiceBase.ExperimentationServiceBase.GetFeaturesAsync | tas-client/src/tas-client/ExperimentationServiceBase.ts:74-124 | an awaited fetch moves the state to `Awaited`; it returns the empty snapshot when nothing could start, and the in-memory one otherwise |
| ServiceBase.ExperimentationServiceBase.PostEventToTelemetry | tas-client/src/tas-client/ExperimentationServiceBase.ts:258-274 | a key already logged posts nothing; a new key is logged and its event posted once |
| ServiceBase.ExperimentationServiceBase.IsFlightEnabled | tas-client/src/tas-client/ExperimentationServiceBase.ts:192-196 | the answer is whether the snapshot lists the flight; the features count as consumed and the flight is logged |
| ServiceBase.ExperimentationServiceBase.IsCachedFlightEnabled | tas-client/src/tas-client/ExperimentationServiceBase.ts:203-208 | the cache load is completed first, then the flight is answered from the snapshot |
| ServiceBase.ExperimentationServiceBase.GetTreatmentVariable | tas-client/src/tas-client/ExperimentationServiceBase.ts:229-234 | the answer is the variable of the first in-memory config with the Id, and the key `configId.name` is logged |
| ServiceBase.ExperimentationServiceBase.AddFeatureProvider | tas-client/src/tas-client/ExperimentationServiceBase.ts:288-295 | the providers are appended in order, unless the provider list was never set up |
| Polling.PollingService.constructor | tas-client/src/tas-client/Util/PollingService.ts:10 | a new service has no interval and no callback |
| Polling.PollingService.StopPolling | tas-client/src/tas-client/Util/PollingService.ts:12-15 | afterwards no interval runs and the handle is gone |
| Polling.PollingService.OnPollTick | tas-client/src/tas-client/Util/PollingService.ts:17-19 | the callback is replaced |
| Polling.PollingService.StartPolling | tas-client/src/tas-client/Util/PollingService.ts:21-51 | with a callback exactly one fresh interval runs, and an immediate tick is returned when asked for; without a callback nothing runs; at most one interval is ever running afterwards |
| Polling.PollingService.IntervalElapsed | tas-client/src/tas-client/Util/PollingService.ts:44-46 | a firing interval runs the registered callback |
| Polling.AtMostOneInterval | tas-client/src/tas-client/Util/PollingService.ts:21-24 | at most one interval is ever active, and one is active iff a handle is held |
| AutoPolling.RefreshRateAcceptedIff | tas-client/src/tas-client/ExperimentationServiceAutoPolling.ts:29-34 | an interval is accepted iff it is 0 (polling off) or at least 1000 ms |
| AutoPolling.ExperimentationServiceAutoPolling.constructor | tas-client/src/tas-client/ExperimentationServiceAutoPolling.ts:19-42 | with every argument of the `super` call in its slot: the storage reaches the base and its entry under the defaulted key is the cache read, while the storage key kept for writing is the raw argument, as the parameter property on line 25 sets it; a polling service exists iff the rate is positive, and its callback is a base fetch without override |
| AutoPolling.ExperimentationServiceAutoPolling.AsWritten | tas-client/src/tas-client/ExperimentationServiceAutoPolling.ts:19-42 | with the `super` call as written: the storage key is kept raw, the cache is never read, the load is already complete, and the assignment-context and event names both hold `''`; polling as in the corrected constructor |
| AutoPolling.ExperimentationServiceAutoPolling.Create | tas-client/src/tas-client/ExperimentationServiceAutoPolling.ts:19-42 | construction throws the minimum-rate error iff the rate is neither 0 nor at least 1000 |
| AutoPolling.ExperimentationServiceAutoPolling.Init | tas-client/src/tas-client/ExperimentationServiceAutoPolling.ts:44-50 | a base round without override is started or joined, and with polling a fresh interval runs |
| AutoPolling.ExperimentationServiceAutoPolling.PollTick | tas-client/src/tas-client/ExperimentationServiceAutoPolling.ts:38-40 | a tick starts or joins a base round without override |
| AutoPolling.ExperimentationServiceAutoPolling.GetFeaturesAsync | tas-client/src/tas-client/ExperimentationServiceAutoPolling.ts:55-64 | a manual fetch is the base fetch, after which polling restarts on a fresh interval |
| AutoPolling.ExperimentationServiceAutoPolling.IsFlightEnabledAsync | tas-client/src/tas-client/ExperimentationServiceBase.ts:215-220 | a refresh with override, then the answer from the refreshed result, with the flight logged |
| AutoPolling.ExperimentationServiceAutoPolling.GetTreatmentVariableAsync | tas-client/src/tas-client/ExperimentationServiceBase.ts:244-256 | with `checkCache`, a defined cached value (even a falsy one) is returned without a fetch; otherwise a refresh with override precedes the read |
| AutoPolling.ExperimentationServiceAutoPolling.RefreshAndRead | tas-client/src/tas-client/ExperimentationServiceBase.ts:254-255 | the fetch settles as `Awaited` with override, and then the variable is read from the new snapshot |
| Service.RefreshRate | tas-client/src/tas-client/ExperimentationService.ts:27-30 | an absent `refetchInterval` turns polling off (0); a given one is passed on |
| Service.FilterProviders | tas-client/src/tas-client/ExperimentationService.ts:26 | an absent filter provider list becomes `[]` |
| Service.ExperimentationService.constructor | tas-client/src/tas-client/ExperimentationService.ts:23-37 | exactly one TAS API provider is registered and the first round is pending; polling runs iff the rate is positive |
| Service.ExperimentationService.Create | tas-client/src/tas-client/ExperimentationService.ts:23-37 | construction succeeds iff the rate is accepted, and then exactly one TAS API provider is registered |
| Service.ExperimentationService.Init | tas-client/src/tas-client/ExperimentationService.ts:39-54 | the provider list is reset to the TAS API provider alone, and then a round without override is pending |
| BaseProvider.BaseFeatureProvider.constructor | tas-client/src/tas-client/FeatureProvider/BaseFeatureProvider.ts:13-19 | a new provider holds no promise and is not fetching |
| BaseProvider.BaseFeatureProvider.GetFeatures | tas-client/src/tas-client/FeatureProvider/BaseFeatureProvider.ts:25-36 | every call runs `fetch` again and returns its value; the slot is cleared only when the fetch fulfils |
| Json.HexDigit | tas-client/src/tas-client/FeatureProvider/FilteredFeatureProvider.ts:46 | a hexadecimal digit of an escape is `0`-`9` or lower-case `a`-`f` |
| Json.HexValueOfDigit | tas-client/src/tas-client/FeatureProvider/FilteredFeatureProvider.ts:46 | a written hex digit reads back as its value |
| Json.HexQuad | tas-client/src/tas-client/FeatureProvider/FilteredFeatureProvider.ts:46 | four hex digits read as a code unit below 0x10000 |
| Json.UnescapeShort | tas-client/src/tas-client/FeatureProvider/FilteredFeatureProvider.ts:46 | a quote, a backslash or a control character with a two-letter escape reads back as itself |
| Json.UnescapeControl | tas-client/src/tas-client/FeatureProvider/FilteredFeatureProvider.ts:46 | any other control character is written as `\u00xx` and reads back as itself |
| Json.UnescapeChar | tas-client/src/tas-client/FeatureProvider/FilteredFeatureProvider.ts:46 | every character, escaped or not, reads back as itself |
| Json.EscapeRoundTrip | tas-client/src/tas-client/FeatureProvider/FilteredFeatureProvider.ts:46 | the JSON string body of any string decodes back to that string |
| Json.EscapePlain | tas-client/src/tas-client/FeatureProvider/FilteredFeatureProvider.ts:46 | a string with nothing to escape is written as it is |
| Json.DigitChar | tas-client/src/tas-client/FeatureProvider/FilteredFeatureProvider.ts:46 | a decimal digit is `0`-`9` |
| Json.NatToStringRoundTrip | tas-client/src/tas-client/FeatureProvider/FilteredFeatureProvider.ts:46 | a number's decimal form parses back to the number and starts with `0` only for zero |
| Json.ObjectJson | tas-client/src/tas-client/FeatureProvider/FilteredFeatureProvider.ts:46 | the serialized object is wrapped in braces, and an empty object is `{}` |
| FilteredProvider.AllFilterEntriesKeys | tas-client/src/tas-client/FeatureProvider/FilteredFeatureProvider.ts:26-34 | a key occurs among the providers' entries iff some provider has it |
| FilteredProvider.CombinedFiltersKeys | tas-client/src/tas-client/FeatureProvider/FilteredFeatureProvider.ts:23-36 | the combined map has each key once, exactly the keys some provider has, in first-seen order |
| FilteredProvider.AllFilterEntriesLastValue | tas-client/src/tas-client/FeatureProvider/FilteredFeatureProvider.ts:26-34 | the last value for a key among all entries is that of the last provider that has the key |
| FilteredProvider.CombinedFiltersLastWins | tas-client/src/tas-client/FeatureProvider/FilteredFeatureProvider.ts:29-32 | headers can be overridden: each key reads the value of the last provider, in list order, that has it |
| FilteredProvider.CombinedFiltersEmpty | tas-client/src/tas-client/FeatureProvider/FilteredFeatureProvider.ts:23-36 | without filter providers there are no filters |
| FilteredProvider.Headers.constructor | tas-client/src/tas-client/FeatureProvider/TasApiFeatureProvider.ts:31 | a new headers object is empty |
| FilteredProvider.Headers.Assign | tas-client/src/tas-client/FeatureProvider/TasApiFeatureProvider.ts:37 | assigning a property is a `Set` on the entries |
| FilteredProvider.TwoMemberObject | tas-client/src/tas-client/FeatureProvider/FilteredFeatureProvider.ts:46 | a two-member object is its two members, comma-separated, in braces |
| FilteredProvider.TwoPlainBooleans | tas-client/test/FeatureProvider.test.ts:49-63 | two boolean headers under plain keys serialize as `{"k0":b0,"k1":b1}`, the shape `{"lucario":true,"wario":false}` has |
| FilteredProvider.JokerLucarioWarioCombine | tas-client/test/ExperimentationService.test.ts:395-403 | scenario replaying the test: a one-filter provider and a two-filter provider combine to three filters (an instance of `CombinedFiltersLastWins`) |
| FilteredProvider.FilteredFeatureProvider.constructor | tas-client/src/tas-client/FeatureProvider/FilteredFeatureProvider.ts:14-21 | a new provider has posted nothing |
| FilteredProvider.FilteredFeatureProvider.GetFilters | tas-client/src/tas-client/FeatureProvider/FilteredFeatureProvider.ts:23-36 | the nested loop builds exactly the combined filters |
| FilteredProvider.FilteredFeatureProvider.PostEventToTelemetry | tas-client/src/tas-client/FeatureProvider/FilteredFeatureProvider.ts:38-57 | the same headers object is never posted twice; a new one is posted as `report-headers` with its JSON under `ABExp.headers` |
| TasApi.ConfigFeatureNames | tas-client/src/tas-client/FeatureProvider/TasApiFeatureProvider.ts:53-63 | a config without `Parameters` yields no name; otherwise one name per variable |
| TasApi.PassedConfigs | tas-client/src/tas-client/FeatureProvider/TasApiFeatureProvider.ts:49-70 | configs are passed on with their Ids and their parameters |
| TasApi.ConfigFeatureNamesMember | tas-client/src/tas-client/FeatureProvider/TasApiFeatureProvider.ts:58-59 | a config yields exactly the names `key` or `key` + `cf` of its variables, `cf` for falsy values |
| TasApi.FeatureNamesMember | tas-client/src/tas-client/FeatureProvider/TasApiFeatureProvider.ts:53-64 | a name occurs iff some config yields it |
| TasApi.DerivedFeaturesSpec | tas-client/src/tas-client/FeatureProvider/TasApiFeatureProvider.ts:52-64 | the feature list has no repeats, follows first appearance, and holds exactly the names the configs yield |
| TasApi.FeatureNamesConcat | tas-client/src/tas-client/FeatureProvider/TasApiFeatureProvider.ts:53-64 | the names of two runs of configs are the names of the first run, then those of the second |
| TasApi.FeatureNamesIgnoring | tas-client/src/tas-client/FeatureProvider/TasApiFeatureProvider.ts:54-56 | a config without `Parameters`, wherever it stands, adds no name |
| TasApi.ParameterlessConfigIgnored | tas-client/src/tas-client/FeatureProvider/TasApiFeatureProvider.ts:54-56 | a config without `Parameters`, wherever it stands, leaves the derived features unchanged |
| TasApi.GuardAsWrittenMissesFilters | tas-client/src/tas-client/FeatureProvider/TasApiFeatureProvider.ts:43-46 | with the two filters `lucario` and `wario`, the guard as written does not report them, while the intended guard does |
| TasApi.GuardAsWrittenNeverHolds | tas-client/src/tas-client/FeatureProvider/TasApiFeatureProvider.ts:43-46 | the guard as written never holds, and it differs from the intended guard exactly when there are filters |
| TasApi.HeadersAreFilters | tas-client/src/tas-client/FeatureProvider/TasApiFeatureProvider.ts:30-38 | copying the combined filters into an empty object reproduces them |
| TasApi.BuildHeaders | tas-client/src/tas-client/FeatureProvider/TasApiFeatureProvider.ts:31-38 | a fresh object holds every filter, assigned in order |
| TasApi.PushConfigFeatures | tas-client/src/tas-client/FeatureProvider/TasApiFeatureProvider.ts:58-63 | one config's names are pushed unless already included |
| TasApi.DeriveFeatures | tas-client/src/tas-client/FeatureProvider/TasApiFeatureProvider.ts:52-64 | the loop computes the derived feature list |
| TasApi.TasApiFeatureProvider.constructor | tas-client/src/tas-client/FeatureProvider/TasApiFeatureProvider.ts:17-23 | a new provider has posted nothing and holds no fetch |
| TasApi.TasApiFeatureProvider.FetchGuarded | tas-client/src/tas-client/FeatureProvider/TasApiFeatureProvider.ts:28-71 | with either guard: the headers are the combined filters, a rejection propagates, an answer yields the derived features, the context and the configs, and the fresh headers are posted once exactly when the fetch is answered and the guard holds |
| TasApi.TasApiFeatureProvider.Fetch | tas-client/src/tas-client/FeatureProvider/TasApiFeatureProvider.ts:28-71 | `fetch` under the corrected guard `filters.size > 0` (see Findings): the headers are the combined filters; a rejection propagates and posts nothing; an answered fetch with filters posts its fresh headers once and returns the derived features, the context and the configs |
| TasApi.TasApiFeatureProvider.FetchAsWritten | tas-client/src/tas-client/FeatureProvider/TasApiFeatureProvider.ts:28-71 | `fetch` as written: the same headers and result, and nothing is ever posted, because the guard on line 44 never holds |
| TasApi.TasApiFeatureProvider.GetFeatures | tas-client/src/tas-client/FeatureProvider/BaseFeatureProvider.ts:25-36 | each call runs `fetch` once more and returns its result; with the guard as written (TasApiFeatureProvider.ts:44) the telemetry log is unchanged, and with the intended guard an answered fetch with filters appends exactly one `report-headers` event for the combined filters, nothing otherwise |
| VSCodeFilters.AlnumTailLength | vscode-tas-client/src/vscode-tas-client/VSCodeFilterProvider.ts:26 | the run of letters and digits ending the string is maximal |
| VSCodeFilters.TrimVersionSuffixSpec | vscode-tas-client/src/vscode-tas-client/VSCodeFilterProvider.ts:25-30 | with a match of `/\-[a-zA-Z0-9]+$/` the result is the part before it, and without one the string is unchanged |
| VSCodeFilters.SuffixMatchUnique | vscode-tas-client/src/vscode-tas-client/VSCodeFilterProvider.ts:26 | the pattern can match only at the hyphen before the letters-and-digits tail |
| VSCodeFilters.TrimVersionSuffixRemovesLastSegment | vscode-tas-client/src/vscode-tas-client/VSCodeFilterProvider.ts:25-30 | the result is a prefix; anything removed is a hyphen and a letters-and-digits run, with no hyphen after it |
| VSCodeFilters.TrimsDevTag | vscode-tas-client/src/vscode-tas-client/VSCodeFilterProvider.ts:19-30 | `1.2.3-dev` becomes `1.2.3` |
| VSCodeFilters.KeepsUntaggedVersion | vscode-tas-client/src/vscode-tas-client/VSCodeFilterProvider.ts:25-30 | `1.2.3` is kept as it is |
| VSCodeFilters.FilterNamesDistinct | vscode-tas-client/src/vscode-tas-client/VSCodeFilterProvider.ts:82-128 | the nine header names are pairwise different |
| VSCodeFilters.GetFilterValueByFilter | vscode-tas-client/src/vscode-tas-client/VSCodeFilterProvider.ts:32-51 | each filter's answer: the trimmed host or extension version, app name, machine id, extension name, language, population; market and corpnet are `''`, and so is every name outside the table |
| VSCodeFilters.FilterTable | vscode-tas-client/src/vscode-tas-client/VSCodeFilterProvider.ts:53-61 | one entry per header name, in declaration order, each set to its value |
| VSCodeFilters.GetFilters | vscode-tas-client/src/vscode-tas-client/VSCodeFilterProvider.ts:53-61 | the loop builds exactly the filter table |
| VSCodeFilters.FilterTableSpec | vscode-tas-client/src/vscode-tas-client/VSCodeFilterProvider.ts:53-61 | nine entries, no key twice, keys in declaration order, each filter reading its value |
| TelemetryDisabled.AnswersAsEmptySnapshot | vscode-tas-client/src/vscode-tas-client/TelemetryDisabledExperimentationService.ts:8-30 | every query is answered as a service holding the empty snapshot would, already resolved: no flight on, no variable defined |
| Scenarios.ThreeResults | tas-client/src/tas-client/ExperimentationServiceBase.ts:141-156 | a three-provider round lists the flights and configs provider by provider |
| Scenarios.MergeSameIdDisjoint | tas-client/src/tas-client/ExperimentationServiceBase.ts:147-154 | three configs with one Id and disjoint variables merge into one config holding all the variables, in order |
| Scenarios.ThirdRoundConfigs | tas-client/test/ExperimentationService.test.ts:331-336 | the third round stores one `test` config with `character1`, `hp1`, `character2`, `isPink`, `character3`, `hp3` |
| Scenarios.ThirdRoundFlights | tas-client/test/ExperimentationService.test.ts:305-330 | the third round's flights are `falco`, `kirby`, `ness`, `mario`, `lucario`, `ike`, in provider order; the test checks membership only, and its comment on line 304 lists the same six in another order |
| Scenarios.FirstRoundShape | tas-client/test/ExperimentationService.test.ts:204-208 | for any eight different names, a second provider repeating the first name and a third repeating the fifth merge to the eight names once each |
| Scenarios.FirstRoundFlights | tas-client/test/ExperimentationService.test.ts:204-237 | the first round's ten flights merge to eight, each once, in first-seen order |
| Scenarios.ProviderRefetchesEveryCall | tas-client/test/FeatureProvider.test.ts:37-47 | three calls run three fetches and return their three values: a provider holds no cache |
| Scenarios.EveryFetchReportsItsHeaders | tas-client/src/tas-client/FeatureProvider/FilteredFeatureProvider.ts:42-44 | under the corrected guard, each fetch builds a new headers object, so two answered fetches with filters post two events |
| Scenarios.FetchesAsWrittenReportNothing | tas-client/src/tas-client/FeatureProvider/TasApiFeatureProvider.ts:43-46 | two answered fetches through `fetch` as written post nothing, whatever the filters |
| Scenarios.CachedFlightSeenOnlyWithStorageHandedOn | tas-client/test/ExperimentationService.test.ts:546-560 | a storage holds the flight `initial` under the service's key: the polling service as written does not see it, and with every argument handed on it does |

## Where the code departs from its comments and tests

The model follows the code in each of these cases, except the two listed under "## Findings", where it models both the code as written and the corrected code.

- A provider is meant to share a pending `getFeatures` call with concurrent callers. `isFetching` is never set to true, though (BaseFeatureProvider.ts:14, 26, 32), so every call fetches again. A rejected fetch also leaves `fetchPromise` set, because the `await` on line 31 throws before lines 32-33 run.
- A service built with no storage key, or `''`, reads its cache under `ABExp.Features` but writes under the key it was given. The base constructor defaults the key and starts the cache read under it (ExperimentationServiceBase.ts:55-57, 63). The polling subclass's parameter property (ExperimentationServiceAutoPolling.ts:25) then sets the key back to the raw argument, and `updateFeatures` writes under that key (lines 168-170). The bundled build does the same (dist/index.cjs:280-283 and 521). So what one session persists is not what the next one reads (`ServiceBase.RawKeyWriteMissesDefaultRead`).
- Storage is meant to default to an in-memory store. The constructor assigns the new `MemoryKeyValueStorage` to its `storage` parameter, not to `this.storage` (ExperimentationServiceBase.ts:59-61). So a service built without storage keeps none, and `updateFeatures` persists nothing (lines 168-170).
- The tests of the TAS API provider expect a failed request to post a `call-tas-error` event whose `ErrorType` property classifies the failure (`ServerError`, `NoResponse`, `GenericError`), and then to throw an `Error` with that event name as its message (TasApiFeatureProvider.test.ts:54-96 and the two tests after it). The source's `fetch` catches nothing (TasApiFeatureProvider.ts:28-71): a rejected request rejects the provider's fetch and posts no event. The round then fails as a whole, and snapshot and storage stay as they were.

## Left out

- Telemetry, storage, timers and HTTP are not called. Telemetry is an in-object log of shared properties and posted events. Storage is a map captured when the service is constructed. The polling timer is a set of active handles. The HTTP answer and each provider's outcome are method inputs. A storage `getValue` that resolves later than the constructor is modelled as the recorded read applied by `LoadCachedFeatureData`.
- Concurrency is not interleaved freely. A fetch round is split at its `await` into `BeginFetch` and `SettleFetch`. A caller that joins a pending round settles it with the round's own flag. Any interleaving beyond that is not modelled.
- The immediate poll tick from `StartPolling(true)` is returned to the caller, and its promise is not awaited.
- `unref` on the interval handle is not modelled (PollingService.ts:47-50). It only affects Node's process lifetime.
- Positional constructor arguments are modelled by the values each base slot receives. The auto-polling class passes its assignment-context property name in the base class's features-property slot, and the model reproduces that. Its `super` call also leaves out one argument, which shifts the rest; that is the second row under "## Findings".
- `Service.ExperimentationService.constructor`: builds on the corrected auto-polling constructor, so its base reads the cache under the defaulted key; with the `super` call as written it would not (`AutoPolling.ExperimentationServiceAutoPolling.AsWritten`). Either way the key it writes under is the raw one.
- `AutoPolling.ExperimentationServiceAutoPolling.Create`: a rejected rate yields a failure and no object. In the source the throw comes after the base constructor has run, which may already have set shared properties on the caller's telemetry sink; that write is not modelled.
- `invokeInit` and the abstract `init` are modelled as the concrete `Init` chain.
- `IExperimentationService`, the mocks and the HTTP client classes are not part of this model.
- JSON output is modelled for flat objects of booleans, integers and strings. Property order is insertion order.
- Integer-like property names (`"0"`, `"42"`) come first, in ascending order, in `Object.keys`, in object spread and in `JSON.stringify`; the model keeps insertion order for every name. This affects the order of derived flights (TasApiFeatureProvider.ts:58), the key order of merged parameters (ExperimentationServiceBase.ts:150) and the header JSON.
- `TasApi.DerivedFeaturesSpec`: the first-appearance order it states holds for names that are not integer-like; see the line above.
- `OrderedMaps.SetAllKeys`: the insertion order it states for a spread holds for names that are not integer-like.
- `Json.IntToString`: models `Number.prototype.toString` for integers of magnitude below 1e21 only; from 1e21 on, JavaScript writes exponent notation (`1e+21`), which is not modelled.
- Object aliasing is not modelled. In `updateFeatures` a config whose Id is new is pushed as the very object the provider returned, and a later config with that Id reassigns that object's `Parameters` (ExperimentationServiceBase.ts:148-153). A storage that keeps values by reference holds the same object as the snapshot. In the source a later write is visible through every alias. In the model every value is immutable, so the merged round, the provider's result, the snapshot and the stored entry are independent.
- `FeatureTypes.Lookup`: reads own treatment variables only. `config?.Parameters[name]` (ExperimentationServiceBase.ts:233) also finds inherited properties of a plain object, so `getTreatmentVariable('c', 'toString')` returns `Object.prototype.toString` where the model gives undefined.
- `AutoPolling.ExperimentationServiceAutoPolling.GetTreatmentVariableAsync`: for the same inherited names, with `checkCache`, the source returns the inherited function without fetching (lines 245-253), where the model refetches.
- Treatment variables are booleans, integers or strings. Floating-point numbers are not modelled.
- Dafny strings hold Unicode scalar values, so lone surrogates, and the `\uD8xx` escapes `JSON.stringify` writes for them, are not modelled.
- `TasApi.TasApiFeatureProvider.Fetch`: posts its headers under the corrected guard `filters.size > 0`. The guard as written (TasApiFeatureProvider.ts:44) never holds, so the source never posts them; that behaviour is `TasApi.TasApiFeatureProvider.FetchAsWritten` (see "## Findings").
- `Scenarios.EveryFetchReportsItsHeaders`: replays the corrected `Fetch`; `Scenarios.FetchesAsWrittenReportNothing` replays the code as written.
- `TasApi.TasApiFeatureProvider.Fetch`: a config whose `Parameters` is missing is passed on with an empty parameter object. The source passes it on without the property, and a later lookup on it would throw. That throw is not modelled.
- `FilteredProvider.FilteredFeatureProvider.PostEventToTelemetry`: the dedup compares headers objects by reference. No headers object is written after it is posted, so the logged JSON always matches the object's current contents.
- The `vscode` host values (`vscode.version`, `env.appName`, `env.machineId`, `env.language`) are inputs.
- `VSCodeFilters.GetFilterValue` returns `''` for names outside the table, as the source does. The source's `string | null` return type is never null, so `null` is not modelled.
- Scenarios use one instance each. The literal two-header JSON string `{"lucario":true,"wario":false}` is proved in `FilteredProvider.TwoPlainBooleans` for arbitrary plain keys and booleans, not as a literal.

## Findings

| source | as written | input that shows it | evidently intended | confidence | as-written member | corrected member |
|---|---|---|---|---|---|---|
| tas-client/src/tas-client/FeatureProvider/TasApiFeatureProvider.ts:44 | `filters.keys.length > 0` reads the arity of the `Map.prototype.keys` method, which is 0, so the guard never holds and `fetch` never reports its headers | the filters `lucario: true, wario: false` (TasApi.GuardAsWrittenMissesFilters) | report the headers when there is at least one filter (`filters.size > 0`), as the comment on line 43 says | high, not executed | TasApi.TasApiFeatureProvider.FetchAsWritten | TasApi.TasApiFeatureProvider.Fetch |
| tas-client/src/tas-client/ExperimentationServiceAutoPolling.ts:28 | `super(telemetry, assignmentContextTelemetryPropertyName, telemetryEventName, storageKey, storage)` passes five arguments to a base constructor with six parameters (ExperimentationServiceBase.ts:47-54), so each argument from the second on lands one slot early and the base gets no storage. The base therefore never reads the cache. This call and this base come from different revisions: a type checker would reject `storage` in a `string` slot, and the bundled build's base takes exactly these five parameters (dist/index.cjs:276-292). The model follows the `.ts` text as written | a storage that holds the flight `initial` under the service's key, and a query `isCachedFlightEnabled('initial')` (Scenarios.CachedFlightSeenOnlyWithStorageHandedOn) | every argument in its own slot, as in the bundled build, so the base receives the storage and reads the cache under the defaulted key; the cache tests (ExperimentationService.test.ts:546-576) expect cached values to be read. The raw storage key that the parameter property on line 25 puts back is a separate matter, which the corrected constructor keeps | medium, not executed | AutoPolling.ExperimentationServiceAutoPolling.AsWritten | AutoPolling.ExperimentationServiceAutoPolling.constructor |

=== FILE: auto_polling.dfy ===
/**
 * The polling coordinator: it validates the refresh interval, starts polling
 * with one immediate tick, wraps every manual fetch in stop/fetch/restart, and
 * answers the async queries through that wrapper. Inheritance is modelled by
 * composition: the coordinator holds the service state it extends.
 */
module AutoPolling {
  import opened Wrappers
  import opened OrderedMaps
  import opened FeatureTypes
  import opened FeatureMerge
  import opened ServiceBase
  import opened Polling

  /** The smallest accepted polling interval, in milliseconds. */
  const MinRefreshRateMs := 1000

  const RefreshRateError :=
    "The minimum refresh rate for polling is 1000 ms (1 second). If you wish to deactivate this auto-polling use value of 0."

  /** The constructor's check: it throws when `refreshRateMs < 1000 && refreshRateMs !== 0`. */
  predicate RefreshRateAccepted(refreshRateMs: int) {
    !(refreshRateMs < MinRefreshRateMs && refreshRateMs != 0)
  }

  /** Exactly 0 (polling off) and intervals of at least one second are accepted. */
  lemma RefreshRateAcceptedIff(refreshRateMs: int)
    ensures RefreshRateAccepted(refreshRateMs) <==> refreshRateMs == 0 || refreshRateMs >= 1000
    ensures RefreshRateAccepted(refreshRateMs) ==> (refreshRateMs > 0 <==> refreshRateMs != 0)
  {
  }

  /** The poll-tick callback: a base fetch without override. */
  datatype PollTick = BaseFetchWithoutOverride

  class ExperimentationServiceAutoPolling {
    const base: ExperimentationServiceBase
    const pollingService: PollingService?<PollTick>
    const filterProviders: seq<FilterProvider>
    const refreshRateMs: int

    ghost predicate Valid()
      reads this, base, pollingService
    {
      && base.Valid()
      && RefreshRateAccepted(refreshRateMs)
      && (pollingService != null <==> refreshRateMs > 0)
      && (pollingService != null ==>
            && pollingService.Valid()
            && pollingService.onTick == Some(BaseFetchWithoutOverride)
            && pollingService.fetchInterval == refreshRateMs)
    }

    /**
     * Construction with an accepted interval, every argument of the `super`
     * call in its own slot: the base's features-property slot receives the
     * assignment-context property name, so the setter's second write (the
     * assignment context) is the one that stays, and the storage is read
     * under the defaulted key. The subclass's parameter properties then set
     * the storage key back to the raw argument, as the code does.
     */
    constructor(filterProviders: seq<FilterProvider>, refreshRateMs: int, assignmentContextTelemetryPropertyName: string,
                telemetryEventName: string, storageKey: Option<string>, storage: Option<Storage>)
      requires RefreshRateAccepted(refreshRateMs)
      ensures Valid() && fresh(base)
      ensures pollingService != null ==> fresh(pollingService) && pollingService.intervalHandle.None?
      ensures this.filterProviders == filterProviders && this.refreshRateMs == refreshRateMs
      ensures base.featuresTelemetryPropertyName == assignmentContextTelemetryPropertyName
      ensures base.assignmentContextTelemetryPropertyName == assignmentContextTelemetryPropertyName
      ensures base.telemetryEventName == telemetryEventName
      ensures base.storageKey == storageKey && base.storage == storage
      ensures base.featureProviders.None? && base.fetchPromise.None? && !base.featuresConsumed
      ensures base.features == EmptyFeatureData && base.cachedTelemetryEvents == []
      ensures base.resolveInitialFetchPending && (base.loadCachePending <==> storage.Some?)
      ensures var readKey := Some(EffectiveStorageKey(storageKey));
        base.cacheRead == if storage.Some? && readKey in storage.value then Some(storage.value[readKey]) else None
      ensures base.sharedProperties ==
        if storage.Some? then map[] else map[assignmentContextTelemetryPropertyName := ""]
    {
      base := new ExperimentationServiceBase.ForPollingSubclass(assignmentContextTelemetryPropertyName,
                                                               telemetryEventName, storageKey, storage);
      this.filterProviders := filterProviders;
      this.refreshRateMs := refreshRateMs;
      if refreshRateMs > 0 {
        var p := new PollingService<PollTick>(refreshRateMs);
        p.OnPollTick(BaseFetchWithoutOverride);
        pollingService := p;
      } else {
        pollingService := null;
      }
    }

    /**
     * Construction with an accepted interval as the `super` call is written:
     * one argument short, so the base never sees the storage. No cache is
     * read, the storage key stays as passed (possibly undefined), and the
     * empty snapshot is already published, under the event name among others.
     */
    constructor AsWritten(filterProviders: seq<FilterProvider>, refreshRateMs: int, assignmentContextTelemetryPropertyName: string,
                          telemetryEventName: string, storageKey: Option<string>, storage: Option<Storage>)
      requires RefreshRateAccepted(refreshRateMs)
      ensures Valid() && fresh(base)
      ensures pollingService != null ==> fresh(pollingService) && pollingService.intervalHandle.None?
      ensures this.filterProviders == filterProviders && this.refreshRateMs == refreshRateMs
      ensures base.featuresTelemetryPropertyName == assignmentContextTelemetryPropertyName
      ensures base.assignmentContextTelemetryPropertyName == assignmentContextTelemetryPropertyName
      ensures base.telemetryEventName == telemetryEventName
      ensures base.storageKey == storageKey && base.storage == storage
      ensures base.featureProviders.None? && base.fetchPromise.None? && !base.featuresConsumed
      ensures base.features == EmptyFeatureData && base.cachedTelemetryEvents == []
      ensures base.resolveInitialFetchPending && !base.loadCachePending && base.cacheRead.None?
      ensures base.sharedProperties == map[assignmentContextTelemetryPropertyName := ""][telemetryEventName := ""]
    {
      base := new ExperimentationServiceBase.ShiftedByPollingSubclass(assignmentContextTelemetryPropertyName,
                                                                     telemetryEventName, storageKey, storage);
      this.filterProviders := filterProviders;
      this.refreshRateMs := refreshRateMs;
      if refreshRateMs > 0 {
        var p := new PollingService<PollTick>(refreshRateMs);
        p.OnPollTick(BaseFetchWithoutOverride);
        pollingService := p;
      } else {
        pollingService := null;
      }
    }

    /** The constructor as a whole: it throws iff the interval is not accepted. */
    static method Create(filterProviders: seq<FilterProvider>, refreshRateMs: int, assignmentContextTelemetryPropertyName: string,
                         telemetryEventName: string, storageKey: Option<string>, storage: Option<Storage>)
      returns (r: Result<ExperimentationServiceAutoPolling, string>)
      ensures r.Success? <==> refreshRateMs == 0 || refreshRateMs >= MinRefreshRateMs
      ensures r.Failure? ==> r.error == RefreshRateError
      ensures r.Success? ==> fresh(r.value) && r.value.Valid() && r.value.refreshRateMs == refreshRateMs
      ensures r.Success? ==> (r.value.pollingService != null <==> refreshRateMs > 0)
    {
      if refreshRateMs < MinRefreshRateMs && refreshRateMs != 0 {
        return Failure(RefreshRateError);
      }
      var service := new ExperimentationServiceAutoPolling(filterProviders, refreshRateMs,
        assignmentContextTelemetryPropertyName, telemetryEventName, storageKey, storage);
      r := Success(service);
    }

    /**
     * `init`: with polling, start the interval and run one immediate tick;
     * without, run one base fetch. Either way a round without override is
     * started or joined.
     */
    method Init() returns (start: FetchStart)
      requires Valid()
      modifies base`fetchPromise, pollingService
      ensures Valid()
      ensures start == StartKind(old(base.State()), base.featureProviders)
      ensures base.State() == Begun(old(base.State()), base.featureProviders, false)
      ensures pollingService != null ==>
        && pollingService.intervalHandle.Some?
        && pollingService.intervalHandle.value !in old(pollingService.activeIntervals)
    {
      if pollingService != null {
        var tick := pollingService.StartPolling(true);
        match tick
        case Some(BaseFetchWithoutOverride) =>
          start := base.BeginFetch(false);
        case None =>
          assert false;
      } else {
        start := base.BeginFetch(false);
      }
    }

    /** The interval fires: its callback starts or joins a base round without override. */
    method PollTick() returns (start: FetchStart)
      requires Valid() && pollingService != null && pollingService.intervalHandle.Some?
      modifies base`fetchPromise
      ensures Valid()
      ensures start == StartKind(old(base.State()), base.featureProviders)
      ensures base.State() == Begun(old(base.State()), base.featureProviders, false)
    {
      var callback := pollingService.IntervalElapsed();
      match callback
      case BaseFetchWithoutOverride =>
        start := base.BeginFetch(false);
    }

    /**
     * The `getFeaturesAsync` override: with polling, stop the timer, await
     * the base fetch, then restart polling without an immediate tick.
     */
    method GetFeaturesAsync(overrideInMemoryFeatures: bool, outcomes: seq<Outcome<FeatureData>>) returns (result: FeatureData)
      requires Valid() && base.RoundSized(outcomes)
      modifies base`fetchPromise, base`features, base`sharedProperties, base`storage
      modifies base`resolveInitialFetchPending, base`initialFetchSignals, pollingService
      ensures Valid()
      ensures base.State() == Awaited(base.Config(), old(base.State()), base.featureProviders, overrideInMemoryFeatures, outcomes)
      ensures result == if old(base.fetchPromise).None? && !HasProviders(base.featureProviders) then EmptyFeatureData else base.features
      ensures pollingService != null ==>
        && pollingService.intervalHandle.Some?
        && pollingService.intervalHandle.value !in old(pollingService.activeIntervals)
    {
      if pollingService == null {
        result := base.GetFeaturesAsync(overrideInMemoryFeatures, outcomes);
      } else {
        pollingService.StopPolling();
        result := base.GetFeaturesAsync(overrideInMemoryFeatures, outcomes);
        var tick := pollingService.StartPolling(false);
        assert tick.None?;
      }
    }

    /** `isFlightEnabledAsync`: refresh with override, then answer from the refreshed result. */
    method IsFlightEnabledAsync(flight: string, outcomes: seq<Outcome<FeatureData>>) returns (enabled: bool)
      requires Valid() && base.RoundSized(outcomes)
      modifies base`fetchPromise, base`features, base`sharedProperties, base`storage
      modifies base`resolveInitialFetchPending, base`initialFetchSignals
      modifies base`featuresConsumed, base`cachedTelemetryEvents, base`postedEvents, pollingService
      ensures Valid() && base.featuresConsumed
      ensures base.State() == Awaited(base.Config(), old(base.State()), base.featureProviders, true, outcomes).(featuresConsumed := true)
      ensures enabled <==> (old(base.fetchPromise).Some? || HasProviders(base.featureProviders)) && flight in base.features.features
      ensures base.cachedTelemetryEvents == AppendNew(old(base.cachedTelemetryEvents), [flight])
    {
      var features := GetFeaturesAsync(true, outcomes);
      base.featuresConsumed := true;
      base.PostEventToTelemetry(flight);
      enabled := flight in features.features;
    }

    /**
     * `getTreatmentVariableAsync`: with `checkCache`, a defined in-memory value
     * (`false` included) is returned without a fetch; an undefined one restores
     * the consumed flag and falls through to a refresh with override.
     */
    method GetTreatmentVariableAsync(configId: string, name: string, checkCache: bool, outcomes: seq<Outcome<FeatureData>>)
      returns (value: Option<Value>)
      requires Valid() && base.RoundSized(outcomes)
      modifies base`fetchPromise, base`features, base`sharedProperties, base`storage
      modifies base`resolveInitialFetchPending, base`initialFetchSignals
      modifies base`featuresConsumed, base`cachedTelemetryEvents, base`postedEvents, pollingService
      ensures Valid() && base.featuresConsumed
      ensures base.cachedTelemetryEvents == AppendNew(old(base.cachedTelemetryEvents), [TreatmentKey(configId, name)])
      ensures checkCache && Lookup(old(base.features).configs, configId, name).Some? ==>
        && value == Lookup(old(base.features).configs, configId, name)
        && base.State() == old(base.State()).(featuresConsumed := true)
        && (pollingService != null ==> pollingService.intervalHandle == old(pollingService.intervalHandle))
      ensures !(checkCache && Lookup(old(base.features).configs, configId, name).Some?) ==>
        && base.State() == Awaited(base.Config(), old(base.State()), base.featureProviders, true, outcomes).(featuresConsumed := true)
        && value == Lookup(base.features.configs, configId, name)
    {
      var key := TreatmentKey(configId, name);
      if checkCache {
        var featuresConsumed := base.featuresConsumed;
        var cachedValue := base.GetTreatmentVariable(configId, name);
        if cachedValue.None? {
          base.featuresConsumed := featuresConsumed;
        } else {
          return cachedValue;
        }
      }
      ghost var logged := base.cachedTelemetryEvents;
      value := RefreshAndRead(configId, name, outcomes);
      assert [key][..0] == [];
      assert checkCache ==> key in logged;
    }

    /** The tail of `getTreatmentVariableAsync`: a refresh with override, then a synchronous read. */
    method RefreshAndRead(configId: string, name: string, outcomes: seq<Outcome<FeatureData>>)
      returns (value: Option<Value>)
      requires Valid() && base.RoundSized(outcomes)
      modifies base`fetchPromise, base`features, base`sharedProperties, base`storage
      modifies base`resolveInitialFetchPending, base`initialFetchSignals
      modifies base`featuresConsumed, base`cachedTelemetryEvents, base`postedEvents, pollingService
      ensures Valid() && base.featuresConsumed
      ensures base.cachedTelemetryEvents == AppendNew(old(base.cachedTelemetryEvents), [TreatmentKey(configId, name)])
      ensures base.State() == Awaited(base.Config(), old(base.State()), base.featureProviders, true, outcomes).(featuresConsumed := true)
      ensures value == Lookup(base.features.configs, configId, name)
    {
      var _ := GetFeaturesAsync(true, outcomes);
      value := base.GetTreatmentVariable(configId, name);
    }
  }
}

=== FILE: base_feature_provider.dfy ===
/**
 * The provider base: `getFeatures` wraps the provider's `fetch` in a slot
 * meant to let concurrent callers share one fetch. `isFetching` starts false
 * and nothing ever sets it, so the sharing branch is unreachable and every
 * call runs `fetch` again. The outcome of `fetch` is an input.
 */
module BaseProvider {
  import opened Wrappers
  import opened FeatureTypes

  class BaseFeatureProvider {
    /** The promise of the fetch in flight; left set when that fetch rejects. */
    var fetchPromise: Option<Outcome<FeatureData>>
    /** Starts false; no statement of the provider sets it. */
    var isFetching: bool
    /** How many times `fetch` has been invoked. */
    var fetchCalls: nat

    ghost predicate Valid()
      reads this
    {
      !isFetching
    }

    constructor()
      ensures Valid()
      ensures fetchPromise.None? && fetchCalls == 0
    {
      fetchPromise := None;
      isFetching := false;
      fetchCalls := 0;
    }

    /**
     * `getFeatures`: the sharing branch cannot be taken; `fetch` runs, its
     * value is returned as it is, and the slot is cleared only when the fetch
     * fulfils (a rejection propagates past the clearing lines).
     */
    method GetFeatures(fetched: Outcome<FeatureData>) returns (result: Outcome<FeatureData>)
      requires Valid()
      modifies this
      ensures Valid()
      ensures result == fetched
      ensures fetchCalls == old(fetchCalls) + 1
      ensures fetchPromise == if fetched.Rejected? then Some(fetched) else None
    {
      if isFetching && fetchPromise.Some? {
        assert false;
      }
      fetchPromise := Some(fetched);
      fetchCalls := fetchCalls + 1;
      if fetched.Rejected? {
        return fetched;
      }
      isFetching := false;
      fetchPromise := None;
      result := fetched;
    }
  }
}

=== FILE: experimentation_service.dfy ===
/**
 * The concrete experimentation service: it defaults its options, passes them
 * to the polling coordinator, and registers exactly one TAS API provider
 * before the first fetch starts.
 */
module Service {
  import opened Wrappers
  import opened FeatureTypes
  import opened ServiceBase
  import opened Polling
  import opened AutoPolling

  /** The construction options; the telemetry sink is the service's own log. */
  datatype ExperimentationServiceConfig = ExperimentationServiceConfig(
    endpoint: string,
    filterProviders: Option<seq<FilterProvider>>,
    assignmentContextTelemetryPropertyName: string,
    telemetryEventName: string,
    refetchInterval: Option<int>,
    storageKey: Option<string>,
    keyValueStorage: Option<Storage>)

  /** `REFRESH_RATE_IN_MINUTES`. */
  const RefreshRateInMinutes := 30

  /** The refresh rate passed on: an absent `refetchInterval` turns polling off. */
  function RefreshRate(options: ExperimentationServiceConfig): (ms: int)
    ensures options.refetchInterval.None? ==> ms == 0
    ensures options.refetchInterval.Some? ==> ms == options.refetchInterval.value
  {
    if options.refetchInterval.Some? then options.refetchInterval.value else 0
  }

  /** The filter providers passed on: an absent list is `[]`. */
  function FilterProviders(options: ExperimentationServiceConfig): (ps: seq<FilterProvider>)
    ensures options.filterProviders.None? ==> ps == []
    ensures options.filterProviders.Some? ==> ps == options.filterProviders.value
  {
    options.filterProviders.GetOr([])
  }

  class ExperimentationService {
    const options: ExperimentationServiceConfig
    const service: ExperimentationServiceAutoPolling

    ghost predicate Valid()
      reads this, service, service.base, service.pollingService
    {
      service.Valid()
    }

    /** Construction with an accepted interval: the coordinator is built, then `init` runs. */
    constructor(options: ExperimentationServiceConfig)
      requires RefreshRateAccepted(RefreshRate(options))
      ensures Valid() && fresh(service) && fresh(service.base) && this.options == options
      ensures service.refreshRateMs == RefreshRate(options) && service.filterProviders == FilterProviders(options)
      ensures service.base.featureProviders == Some([TasApiProvider(options.endpoint, FilterProviders(options))])
      ensures service.base.fetchPromise == Some(PendingFetch(false, 1))
      ensures service.pollingService != null <==> RefreshRate(options) > 0
      ensures service.pollingService != null ==> fresh(service.pollingService) && service.pollingService.intervalHandle.Some?
    {
      this.options := options;
      service := new ExperimentationServiceAutoPolling(FilterProviders(options), RefreshRate(options),
        options.assignmentContextTelemetryPropertyName, options.telemetryEventName, options.storageKey, options.keyValueStorage);
      new;
      Init();
    }

    /** The constructor as a whole: it throws, before any provider is registered, iff the interval is rejected. */
    static method Create(options: ExperimentationServiceConfig) returns (r: Result<ExperimentationService, string>)
      ensures r.Success? <==> RefreshRateAccepted(RefreshRate(options))
      ensures r.Failure? ==> r.error == RefreshRateError
      ensures r.Success? ==> fresh(r.value) && r.value.Valid()
      ensures r.Success? ==> r.value.service.base.featureProviders == Some([TasApiProvider(options.endpoint, FilterProviders(options))])
    {
      var refreshRateMs := RefreshRate(options);
      if refreshRateMs < MinRefreshRateMs && refreshRateMs != 0 {
        return Failure(RefreshRateError);
      }
      var s := new ExperimentationService(options);
      r := Success(s);
    }

    /**
     * `init`: reset the provider list, register the TAS API provider, then
     * run the coordinator's `init`, which starts the first round.
     */
    method Init()
      requires Valid() && service.base.fetchPromise.None?
      modifies service.base`featureProviders, service.base`fetchPromise, service.pollingService
      ensures Valid()
      ensures service.base.featureProviders == Some([TasApiProvider(options.endpoint, service.filterProviders)])
      ensures service.base.fetchPromise == Some(PendingFetch(false, 1))
      ensures service.pollingService != null ==> service.pollingService.intervalHandle.Some?
    {
      var provider := TasApiProvider(options.endpoint, service.filterProviders);
      service.base.featureProviders := Some([]);
      service.base.AddFeatureProvider([provider]);
      assert [] + [provider] == [provider];
      var _ := service.Init();
    }
  }
}

=== FILE: feature_types.dfy ===
/**
 * The data a feature provider returns and the experimentation service keeps:
 * a list of flights (feature names), an assignment context string, and a list
 * of configs, each an Id with a flat object of treatment variables.
 */
module FeatureTypes {
  import opened Wrappers
  import opened OrderedMaps

  /** A treatment variable: `boolean | number | string` (numbers are integers here). */
  datatype Value = Bool(b: bool) | Int(i: int) | Str(s: string)

  /** JavaScript truthiness of a treatment variable. */
  predicate Truthy(v: Value) {
    match v
    case Bool(b) => b
    case Int(i) => i != 0
    case Str(s) => s != ""
  }

  /** A `Parameters` object: its properties in insertion order. */
  type Parameters = seq<(string, Value)>

  /** A config: an Id and its treatment variables. */
  datatype ConfigData = ConfigData(id: string, parameters: Parameters)

  /** What a provider returns and what the service keeps in memory and in storage. */
  datatype FeatureData = FeatureData(features: seq<string>, assignmentContext: string, configs: seq<ConfigData>)

  /** `{ features: [], assignmentContext: '', configs: [] }`. */
  const EmptyFeatureData := FeatureData([], "", [])

  /** Every parameter object of the configs is a real object: no key twice. */
  predicate WellFormedConfigs(cs: seq<ConfigData>) {
    forall i :: 0 <= i < |cs| ==> UniqueKeys(cs[i].parameters)
  }

  /** The Ids of a config list, in order. */
  function Ids(cs: seq<ConfigData>): (ids: seq<string>)
    ensures |ids| == |cs|
    ensures forall i :: 0 <= i < |cs| ==> ids[i] == cs[i].id
  {
    seq(|cs|, i requires 0 <= i < |cs| => cs[i].id)
  }

  /** The first config's Id, then the Ids of the rest. */
  lemma IdsTail(cs: seq<ConfigData>)
    requires cs != []
    ensures Ids(cs) == [cs[0].id] + Ids(cs[1..])
  {
  }

  /** `configs.find(c => c.Id === id)`: the first config with that Id, if any. */
  function FindConfig(cs: seq<ConfigData>, id: string): (r: Option<ConfigData>)
    ensures r.Some? <==> id in Ids(cs)
    ensures r.Some? ==> r.value == cs[FirstIndex(Ids(cs), id)]
  {
    if cs == [] then None
    else if cs[0].id == id then
      assert Ids(cs)[0] == id;
      Some(cs[0])
    else
      var r := FindConfig(cs[1..], id);
      IdsTail(cs);
      if r.Some? then
        var j := FirstIndex(Ids(cs[1..]), id);
        FirstIndexUnique(Ids(cs), id, j + 1);
        r
      else r
  }

  /**
   * `configs.find(c => c.Id === configId)?.Parameters[name]`: the variable
   * `name` of the first config with the Id, or undefined.
   */
  function Lookup(cs: seq<ConfigData>, configId: string, name: string): (r: Option<Value>)
    ensures configId !in Ids(cs) ==> r.None?
    ensures configId in Ids(cs) ==> r == Get(cs[FirstIndex(Ids(cs), configId)].parameters, name)
    ensures r.Some? ==> configId in Ids(cs)
    ensures r.Some? ==> name in Keys(cs[FirstIndex(Ids(cs), configId)].parameters)
  {
    match FindConfig(cs, configId)
    case None => None
    case Some(c) => Get(c.parameters, name)
  }

  /** The telemetry key of a treatment variable query: `${configId}.${name}`. */
  function TreatmentKey(configId: string, name: string): string {
    configId + "." + name
  }

  /** `xs.join(sep)`. */
  function Join(xs: seq<string>, sep: string): (r: string)
    ensures xs == [] ==> r == ""
    ensures |xs| == 1 ==> r == xs[0]
    decreases |xs|
  {
    if xs == [] then ""
    else if |xs| == 1 then xs[0]
    else Join(xs[..|xs| - 1], sep) + sep + xs[|xs| - 1]
  }

  /** Joining two non-empty lists is joining each and putting one separator between. */
  lemma {:induction false} JoinConcat(xs: seq<string>, ys: seq<string>, sep: string)
    requires xs != [] && ys != []
    ensures Join(xs + ys, sep) == Join(xs, sep) + sep + Join(ys, sep)
    decreases |ys|
  {
    var zs := xs + ys;
    var last := ys[|ys| - 1];
    assert zs[|zs| - 1] == last;
    if |ys| == 1 {
      assert zs[..|zs| - 1] == xs;
      assert Join(ys, sep) == last;
    } else {
      var init := ys[..|ys| - 1];
      assert zs[..|zs| - 1] == xs + init;
      assert Join(ys, sep) == Join(init, sep) + sep + last;
      JoinConcat(xs, init, sep);
    }
    assert Join(zs, sep) == Join(zs[..|zs| - 1], sep) + sep + last;
  }

  /** An event posted to the telemetry sink: its name and its string properties. */
  datatype TelemetryEvent = TelemetryEvent(eventName: string, properties: seq<(string, string)>)

  /** A filter provider, seen through the `Map` its `getFilters()` returns. */
  datatype FilterProvider = FilterProvider(filters: seq<(string, Value)>)

  /** A feature provider registered with the service. */
  datatype ProviderRef =
    | TasApiProvider(endpoint: string, filterProviders: seq<FilterProvider>)
    | OtherProvider(name: string)
}

=== FILE: filtered_feature_provider.dfy ===
/**
 * The filtering provider: it folds the maps of its filter providers into one
 * map of request headers (later providers override earlier ones) and posts
 * each headers object to telemetry at most once.
 */
module FilteredProvider {
  import opened Wrappers
  import opened OrderedMaps
  import opened FeatureTypes
  import opened Json
  import opened BaseProvider

  const ReportHeadersEvent := "report-headers"
  const HeadersProperty := "ABExp.headers"

  /** Every entry of every filter map, providers in list order. */
  function AllFilterEntries(providers: seq<FilterProvider>): seq<(string, Value)>
    decreases |providers|
  {
    if providers == [] then []
    else AllFilterEntries(providers[..|providers| - 1]) + providers[|providers| - 1].filters
  }

  /** The map `getFilters` builds: every entry set, in order, into an empty map. */
  function CombinedFilters(providers: seq<FilterProvider>): seq<(string, Value)> {
    SetAll([], AllFilterEntries(providers))
  }

  /** The value of `k` in the last provider, in list order, whose map has it. */
  function LastProviderValue(providers: seq<FilterProvider>, k: string): Option<Value>
    decreases |providers|
  {
    if providers == [] then None
    else
      var last := providers[|providers| - 1];
      if k in Keys(last.filters) then Get(last.filters, k) else LastProviderValue(providers[..|providers| - 1], k)
  }

  /** Every filter provider returns a real `Map`: no key twice. */
  predicate WellFormedProviders(providers: seq<FilterProvider>) {
    forall i :: 0 <= i < |providers| ==> UniqueKeys(providers[i].filters)
  }

  lemma {:induction false} AllFilterEntriesKeys(providers: seq<FilterProvider>, k: string)
    ensures k in Keys(AllFilterEntries(providers)) <==>
      exists i :: 0 <= i < |providers| && k in Keys(providers[i].filters)
    decreases |providers|
  {
    if providers != [] {
      var n := |providers|;
      var init := providers[..n - 1];
      AllFilterEntriesKeys(init, k);
      var a, b := AllFilterEntries(init), providers[n - 1].filters;
      assert Keys(a + b) == Keys(a) + Keys(b);
      assert forall i :: 0 <= i < n - 1 ==> init[i] == providers[i];
    }
  }

  /**
   * The keys of the combined map are the union of the providers' keys, in
   * the order they are first seen, each once.
   */
  lemma CombinedFiltersKeys(providers: seq<FilterProvider>, k: string)
    ensures Keys(CombinedFilters(providers)) == AppendNew([], Keys(AllFilterEntries(providers)))
    ensures UniqueKeys(CombinedFilters(providers))
    ensures k in Keys(CombinedFilters(providers)) <==>
      exists i :: 0 <= i < |providers| && k in Keys(providers[i].filters)
  {
    SetAllKeys([], AllFilterEntries(providers));
    AppendNewContains([], Keys(AllFilterEntries(providers)), k);
    AllFilterEntriesKeys(providers, k);
  }

  lemma {:induction false} AllFilterEntriesLastValue(providers: seq<FilterProvider>, k: string)
    requires WellFormedProviders(providers)
    ensures LastValue(AllFilterEntries(providers), k) == LastProviderValue(providers, k)
    decreases |providers|
  {
    if providers != [] {
      var n := |providers|;
      var init, last := providers[..n - 1], providers[n - 1];
      AllFilterEntriesLastValue(init, k);
      LastValueConcat(AllFilterEntries(init), last.filters, k);
      UniqueGetIsLast(last.filters, k);
    }
  }

  /** Headers can be overridden: each key reads the value of the last provider that has it. */
  lemma CombinedFiltersLastWins(providers: seq<FilterProvider>, k: string)
    requires WellFormedProviders(providers)
    ensures Get(CombinedFilters(providers), k) == LastProviderValue(providers, k)
  {
    SetAllGet([], AllFilterEntries(providers), k);
    AllFilterEntriesLastValue(providers, k);
  }

  /** Without filter providers there are no filters. */
  lemma CombinedFiltersEmpty()
    ensures CombinedFilters([]) == []
  {
  }

  /** The request headers object; the telemetry log holds it by reference. */
  class Headers {
    var entries: seq<(string, Value)>

    /** `{}`. */
    constructor()
      ensures entries == []
    {
      entries := [];
    }

    /** `headers[key] = value`. */
    method Assign(key: string, value: Value)
      modifies this
      ensures entries == Set(old(entries), key, value)
    {
      entries := Set(entries, key, value);
    }
  }

  /** The event that reports a headers object: its JSON under `ABExp.headers`. */
  function HeadersEvent(entries: seq<(string, Value)>): TelemetryEvent {
    TelemetryEvent(ReportHeadersEvent, [(HeadersProperty, ObjectJson(entries))])
  }

  /** A two-member object: braces around the two members and a comma. */
  lemma TwoMemberObject(e0: (string, Value), e1: (string, Value))
    ensures ObjectJson([e0, e1]) == "{" + (MemberJson(e0) + "," + MemberJson(e1)) + "}"
  {
    var entries := [e0, e1];
    var members := seq(|entries|, i requires 0 <= i < |entries| => MemberJson(entries[i]));
    assert members == [MemberJson(e0), MemberJson(e1)];
    assert members[..1] == [MemberJson(e0)];
  }

  /**
   * A flat object of two booleans under keys with nothing to escape: each key
   * in quotes, a colon, `true` or `false`, comma-separated, in braces (as the
   * headers `lucario: true, wario: false` become `{"lucario":true,"wario":false}`).
   */
  lemma TwoPlainBooleans(k0: string, b0: bool, k1: string, b1: bool)
    requires Plain(k0) && Plain(k1)
    ensures ObjectJson([(k0, Bool(b0)), (k1, Bool(b1))])
         == "{" + (("\"" + k0 + "\"" + ":" + (if b0 then "true" else "false")) + "," +
                   ("\"" + k1 + "\"" + ":" + (if b1 then "true" else "false"))) + "}"
  {
    TwoMemberObject((k0, Bool(b0)), (k1, Bool(b1)));
    EscapePlain(k0);
    EscapePlain(k1);
  }

  /** A provider with `joker` and one with `lucario` and `wario` combine to exactly these three filters. */
  lemma JokerLucarioWarioCombine()
    ensures CombinedFilters([FilterProvider([("joker", Bool(true))]),
                             FilterProvider([("lucario", Bool(true)), ("wario", Bool(false))])])
         == [("joker", Bool(true)), ("lucario", Bool(true)), ("wario", Bool(false))]
  {
    var one := FilterProvider([("joker", Bool(true))]);
    var two := FilterProvider([("lucario", Bool(true)), ("wario", Bool(false))]);
    var all := [("joker", Bool(true)), ("lucario", Bool(true)), ("wario", Bool(false))];
    assert [one, two][..1] == [one];
    assert AllFilterEntries([one]) == one.filters;
    assert AllFilterEntries([one, two]) == all;
    assert "joker"[0] != "wario"[0];
    assert Keys(all) == ["joker", "lucario", "wario"];
    SetAllOntoEmpty(all);
  }

  class FilteredFeatureProvider {
    const base: BaseFeatureProvider
    const filterProviders: seq<FilterProvider>
    /** The headers objects already posted, by reference. */
    var cachedTelemetryEvents: seq<Headers>
    /** The events this provider posted to the telemetry sink. */
    var postedEvents: seq<TelemetryEvent>

    /**
     * Each headers object was posted once, as the event serializing it
     * (the headers objects are not written after they are posted).
     */
    ghost predicate Valid()
      reads this, base, cachedTelemetryEvents
    {
      && base.Valid()
      && NoDup(cachedTelemetryEvents)
      && |postedEvents| == |cachedTelemetryEvents|
      && (forall i :: 0 <= i < |postedEvents| ==> postedEvents[i] == HeadersEvent(cachedTelemetryEvents[i].entries))
    }

    constructor(filterProviders: seq<FilterProvider>)
      ensures Valid() && fresh(base)
      ensures this.filterProviders == filterProviders
      ensures cachedTelemetryEvents == [] && postedEvents == []
      ensures base.fetchPromise.None? && base.fetchCalls == 0
    {
      base := new BaseFeatureProvider();
      this.filterProviders := filterProviders;
      cachedTelemetryEvents := [];
      postedEvents := [];
    }

    /** `getFilters`: a fresh map, into which every provider's entries are set in turn. */
    method GetFilters() returns (filters: seq<(string, Value)>)
      ensures filters == CombinedFilters(filterProviders)
    {
      filters := [];
      for i := 0 to |filterProviders|
        invariant filters == CombinedFilters(filterProviders[..i])
      {
        var filterHeaders := filterProviders[i].filters;
        assert filterProviders[..i + 1][..i] == filterProviders[..i];
        SetAllConcat([], AllFilterEntries(filterProviders[..i]), filterHeaders);
        for j := 0 to |filterHeaders|
          invariant filters == SetAll(CombinedFilters(filterProviders[..i]), filterHeaders[..j])
        {
          assert filterHeaders[..j + 1][..j] == filterHeaders[..j];
          filters := Set(filters, filterHeaders[j].0, filterHeaders[j].1);
        }
        assert filterHeaders[..|filterHeaders|] == filterHeaders;
      }
      assert filterProviders[..|filterProviders|] == filterProviders;
    }

    /** `PostEventToTelemetry`: post a headers object unless that same object was posted before. */
    method PostEventToTelemetry(headers: Headers)
      requires Valid()
      modifies this`cachedTelemetryEvents, this`postedEvents
      ensures Valid()
      ensures headers in old(cachedTelemetryEvents) ==>
        cachedTelemetryEvents == old(cachedTelemetryEvents) && postedEvents == old(postedEvents)
      ensures headers !in old(cachedTelemetryEvents) ==>
        && cachedTelemetryEvents == old(cachedTelemetryEvents) + [headers]
        && postedEvents == old(postedEvents) + [HeadersEvent(headers.entries)]
    {
      if headers in cachedTelemetryEvents {
        return;
      }
      var jsonHeaders := ObjectJson(headers.entries);
      postedEvents := postedEvents + [TelemetryEvent(ReportHeadersEvent, [(HeadersProperty, jsonHeaders)])];
      cachedTelemetryEvents := cachedTelemetryEvents + [headers];
    }
  }
}

=== FILE: json.dfy ===
/**
 * `JSON.stringify` of a flat object whose values are booleans, integers or
 * strings, as section 25.5.2 of ECMA-262 (JSON.stringify and its
 * QuoteJSONString step) serializes it, with the decoders that show nothing
 * is lost.
 */
module Json {
  import opened Wrappers
  import opened FeatureTypes

  /** A lower-case hexadecimal digit. */
  function HexDigit(d: nat): (c: char)
    requires d < 16
    ensures '0' <= c <= '9' || 'a' <= c <= 'f'
  {
    if d < 10 then ('0' as int + d) as char else ('a' as int + d - 10) as char
  }

  /** The value of a hexadecimal digit, either case. */
  function HexValue(c: char): Option<nat> {
    if '0' <= c <= '9' then Some(c as int - '0' as int)
    else if 'a' <= c <= 'f' then Some(c as int - 'a' as int + 10)
    else if 'A' <= c <= 'F' then Some(c as int - 'A' as int + 10)
    else None
  }

  lemma HexValueOfDigit(d: nat)
    requires d < 16
    ensures HexValue(HexDigit(d)) == Some(d)
  {
  }

  /** The code unit four hexadecimal digits spell, as a `\u` escape reads them. */
  function HexQuad(a: char, b: char, c: char, d: char): (r: Option<nat>)
    ensures r.Some? ==> r.value < 0x10000
  {
    match (HexValue(a), HexValue(b), HexValue(c), HexValue(d))
    case (Some(w), Some(x), Some(y), Some(z)) =>
      assert w < 16 && x < 16 && y < 16 && z < 16;
      Some(((w * 16 + x) * 16 + y) * 16 + z)
    case _ => None
  }

  /** The code units `QuoteJSONString` does not copy as they are. */
  predicate NeedsEscape(c: char) {
    c == '"' || c == '\\' || c < ' '
  }

  /** `QuoteJSONString` on one code unit. */
  function EscapeChar(c: char): string {
    if c == '"' then "\\\""
    else if c == '\\' then "\\\\"
    else if c as int == 0x08 then "\\b"
    else if c as int == 0x0C then "\\f"
    else if c == '\n' then "\\n"
    else if c == '\r' then "\\r"
    else if c == '\t' then "\\t"
    else if (c as int) < 0x20 then "\\u00" + [HexDigit((c as int) / 16), HexDigit((c as int) % 16)]
    else [c]
  }

  /** The body of a JSON string literal for `s`. */
  function Escape(s: string): string
    decreases |s|
  {
    if s == [] then "" else EscapeChar(s[0]) + Escape(s[1..])
  }

  /** A JSON string literal. */
  function Quote(s: string): string {
    "\"" + Escape(s) + "\""
  }

  /**
   * Reads the body of a JSON string literal back: every escape of section 9
   * of ECMA-404 is decoded, and a bare quote or control character is refused.
   */
  function Unescape(t: string): Option<string>
    decreases |t|
  {
    if t == [] then Some("")
    else if t[0] == '"' || (t[0] as int) < 0x20 then None
    else if t[0] != '\\' then
      match Unescape(t[1..])
      case None => None
      case Some(rest) => Some([t[0]] + rest)
    else if |t| < 2 then None
    else
      var e := t[1];
      if e == 'u' then
        if |t| < 6 then None
        else
          match HexQuad(t[2], t[3], t[4], t[5])
          case None => None
          case Some(code) =>
            if 0xD800 <= code < 0xE000 then None
            else
              match Unescape(t[6..])
              case None => None
              case Some(rest) => Some([code as char] + rest)
      else
        var decoded :=
          if e == '"' then Some('"')
          else if e == '\\' then Some('\\')
          else if e == '/' then Some('/')
          else if e == 'b' then Some(8 as char)
          else if e == 'f' then Some(12 as char)
          else if e == 'n' then Some('\n')
          else if e == 'r' then Some('\r')
          else if e == 't' then Some('\t')
          else None;
        match decoded
        case None => None
        case Some(c) =>
          match Unescape(t[2..])
          case None => None
          case Some(rest) => Some([c] + rest)
  }

  /** Reading a two-character escape back. */
  lemma UnescapeShort(c: char, rest: string)
    requires Unescape(rest).Some?
    requires c == '"' || c == '\\' || c as int == 0x08 || c as int == 0x0C || c == '\n' || c == '\r' || c == '\t'
    ensures Unescape(EscapeChar(c) + rest) == Some([c] + Unescape(rest).value)
  {
    var t := EscapeChar(c) + rest;
    assert |EscapeChar(c)| == 2;
    assert t[2..] == rest;
  }

  /** Reading a `\u00XX` escape of a control character back. */
  lemma UnescapeControl(c: char, rest: string)
    requires Unescape(rest).Some?
    requires (c as int) < 0x20 && !(c as int == 0x08 || c as int == 0x0C || c == '\n' || c == '\r' || c == '\t')
    ensures Unescape(EscapeChar(c) + rest) == Some([c] + Unescape(rest).value)
  {
    var t := EscapeChar(c) + rest;
    var hi, lo := (c as int) / 16, (c as int) % 16;
    HexValueOfDigit(hi);
    HexValueOfDigit(lo);
    assert EscapeChar(c) == "\\u00" + [HexDigit(hi), HexDigit(lo)];
    assert t[0] == '\\' && t[1] == 'u';
    assert t[2] == '0' && t[3] == '0' && t[4] == HexDigit(hi) && t[5] == HexDigit(lo);
    assert HexQuad(t[2], t[3], t[4], t[5]) == Some(c as int);
    assert t[6..] == rest;
  }

  /** Reading one escaped code unit back, ahead of any readable rest. */
  lemma UnescapeChar(c: char, rest: string)
    requires Unescape(rest).Some?
    ensures Unescape(EscapeChar(c) + rest) == Some([c] + Unescape(rest).value)
  {
    if c == '"' || c == '\\' || c as int == 0x08 || c as int == 0x0C || c == '\n' || c == '\r' || c == '\t' {
      UnescapeShort(c, rest);
    } else if (c as int) < 0x20 {
      UnescapeControl(c, rest);
    } else {
      var t := EscapeChar(c) + rest;
      assert t[1..] == rest;
    }
  }

  /** The escaping is lossless: the literal body reads back as the original string. */
  lemma {:induction false} EscapeRoundTrip(s: string)
    ensures Unescape(Escape(s)) == Some(s)
    decreases |s|
  {
    if s != [] {
      EscapeRoundTrip(s[1..]);
      UnescapeChar(s[0], Escape(s[1..]));
      assert [s[0]] + s[1..] == s;
    }
  }

  /** A string none of whose code units needs escaping. */
  predicate Plain(s: string)
    decreases |s|
  {
    s == [] || (!NeedsEscape(s[0]) && Plain(s[1..]))
  }

  /** A string with nothing to escape is copied as it is. */
  lemma {:induction false} EscapePlain(s: string)
    requires Plain(s)
    ensures Escape(s) == s
    decreases |s|
  {
    if s != [] {
      EscapePlain(s[1..]);
      assert [s[0]] + s[1..] == s;
    }
  }

  /** A decimal digit. */
  function DigitChar(d: nat): (c: char)
    requires d < 10
    ensures '0' <= c <= '9'
  {
    ('0' as int + d) as char
  }

  /** The decimal numeral of a natural number, without leading zeros. */
  function NatToString(n: nat): (s: string)
    decreases n
  {
    if n < 10 then [DigitChar(n)] else NatToString(n / 10) + [DigitChar(n % 10)]
  }

  /** Reads a non-empty run of decimal digits. */
  function ParseNat(s: string): Option<nat>
    decreases |s|
  {
    if s == [] then None
    else if !('0' <= s[|s| - 1] <= '9') then None
    else
      var d := s[|s| - 1] as int - '0' as int;
      if |s| == 1 then Some(d)
      else
        match ParseNat(s[..|s| - 1])
        case None => None
        case Some(m) => Some(m * 10 + d)
  }

  /** A numeral reads back as its number, and has a leading zero only when it is 0. */
  lemma {:induction false} NatToStringRoundTrip(n: nat)
    ensures ParseNat(NatToString(n)) == Some(n)
    ensures NatToString(n)[0] == '0' <==> n == 0
    decreases n
  {
    if n >= 10 {
      NatToStringRoundTrip(n / 10);
      var s := NatToString(n);
      assert s[..|s| - 1] == NatToString(n / 10);
    }
  }

  /** `Number.prototype.toString` on an integer: a minus sign, then the numeral. */
  function IntToString(i: int): string {
    if i < 0 then "-" + NatToString(-i) else NatToString(i)
  }

  /** The serialization of one treatment value. */
  function ValueJson(v: Value): string {
    match v
    case Bool(b) => if b then "true" else "false"
    case Int(i) => IntToString(i)
    case Str(s) => Quote(s)
  }

  /** One member of an object: the quoted key, a colon, the value. */
  function MemberJson(e: (string, Value)): string {
    Quote(e.0) + ":" + ValueJson(e.1)
  }

  /** `JSON.stringify` of an object: its members in key order, comma-separated, in braces. */
  function ObjectJson(entries: seq<(string, Value)>): (r: string)
    ensures entries == [] ==> r == "{}"
    ensures |r| >= 2 && r[0] == '{' && r[|r| - 1] == '}'
  {
    "{" + Join(seq(|entries|, i requires 0 <= i < |entries| => MemberJson(entries[i])), ",") + "}"
  }
}

=== FILE: merge.dfy ===
/**
 * How `updateFeatures` folds the results of one provider round into one
 * `FeatureData`: flights are deduplicated in first-seen order, configs are
 * merged per Id (a later config spreads its variables over the first config
 * with the same Id, or is pushed when the Id is new), and assignment contexts
 * are concatenated, all in provider registration order.
 */
module FeatureMerge {
  import opened Wrappers
  import opened OrderedMaps
  import opened FeatureTypes

  /** The flights of every result, in provider order, duplicates kept. */
  function AllFlights(rs: seq<FeatureData>): seq<string>
    decreases |rs|
  {
    if rs == [] then [] else AllFlights(rs[..|rs| - 1]) + rs[|rs| - 1].features
  }

  /** The configs of every result, in provider order. */
  function AllConfigs(rs: seq<FeatureData>): seq<ConfigData>
    decreases |rs|
  {
    if rs == [] then [] else AllConfigs(rs[..|rs| - 1]) + rs[|rs| - 1].configs
  }

  /** The assignment contexts of every result, concatenated in provider order. */
  function MergedContext(rs: seq<FeatureData>): string
    decreases |rs|
  {
    if rs == [] then "" else MergedContext(rs[..|rs| - 1]) + rs[|rs| - 1].assignmentContext
  }

  /**
   * One config of the inner loop: spread its variables over the first config
   * with its Id, or push it when the Id is new. The Ids gain the new Id only.
   */
  function MergeConfig(acc: seq<ConfigData>, c: ConfigData): (r: seq<ConfigData>)
    ensures Ids(r) == AppendNew(Ids(acc), [c.id])
  {
    assert [c.id][..0] == [];
    if c.id in Ids(acc) then
      var i := FirstIndex(Ids(acc), c.id);
      var r := acc[i := ConfigData(acc[i].id, SetAll(acc[i].parameters, c.parameters))];
      assert Ids(r) == Ids(acc);
      r
    else
      assert Ids(acc + [c]) == Ids(acc) + [c.id];
      acc + [c]
  }

  /** Merges the configs `cs`, in order, into `acc`. */
  function MergeConfigs(acc: seq<ConfigData>, cs: seq<ConfigData>): seq<ConfigData>
    decreases |cs|
  {
    if cs == [] then acc else MergeConfig(MergeConfigs(acc, cs[..|cs| - 1]), cs[|cs| - 1])
  }

  /** The merged result of one provider round. */
  function Merge(rs: seq<FeatureData>): FeatureData {
    FeatureData(AppendNew([], AllFlights(rs)), MergedContext(rs), MergeConfigs([], AllConfigs(rs)))
  }

  /** The variables that configs with Id `id` write, in order. */
  function ParamsOf(cs: seq<ConfigData>, id: string): Parameters
    decreases |cs|
  {
    if cs == [] then []
    else ParamsOf(cs[..|cs| - 1], id) + (if cs[|cs| - 1].id == id then cs[|cs| - 1].parameters else [])
  }

  /**
   * The flights loop of `updateFeatures`: push each incoming flight that the
   * merged list does not include yet.
   */
  method PushNewFlights(features: seq<string>, incoming: seq<string>) returns (r: seq<string>)
    ensures r == AppendNew(features, incoming)
  {
    r := features;
    for j := 0 to |incoming|
      invariant r == AppendNew(features, incoming[..j])
    {
      var feature := incoming[j];
      assert incoming[..j + 1][..j] == incoming[..j];
      if feature !in r {
        r := r + [feature];
      }
    }
    assert incoming[..|incoming|] == incoming;
  }

  /**
   * The configs loop of `updateFeatures`: spread each incoming config over the
   * first merged config with its Id, or push it.
   */
  method MergeIncomingConfigs(configs: seq<ConfigData>, incoming: seq<ConfigData>) returns (r: seq<ConfigData>)
    ensures r == MergeConfigs(configs, incoming)
  {
    r := configs;
    for j := 0 to |incoming|
      invariant r == MergeConfigs(configs, incoming[..j])
    {
      var config := incoming[j];
      assert incoming[..j + 1][..j] == incoming[..j];
      if config.id in Ids(r) {
        var i := FirstIndex(Ids(r), config.id);
        r := r[i := ConfigData(r[i].id, SetAll(r[i].parameters, config.parameters))];
      } else {
        r := r + [config];
      }
    }
    assert incoming[..|incoming|] == incoming;
  }

  /**
   * The body of `updateFeatures` up to the assignment: the loop over the
   * provider results builds the merged `FeatureData`.
   */
  method MergeResults(featureResults: seq<FeatureData>) returns (merged: FeatureData)
    ensures merged == Merge(featureResults)
  {
    var features: seq<string> := [];
    var assignmentContext := "";
    var configs: seq<ConfigData> := [];
    for k := 0 to |featureResults|
      invariant features == AppendNew([], AllFlights(featureResults[..k]))
      invariant assignmentContext == MergedContext(featureResults[..k])
      invariant configs == MergeConfigs([], AllConfigs(featureResults[..k]))
    {
      var result := featureResults[k];
      assert featureResults[..k + 1][..k] == featureResults[..k];
      AppendNewConcat([], AllFlights(featureResults[..k]), result.features);
      MergeConfigsConcat([], AllConfigs(featureResults[..k]), result.configs);
      features := PushNewFlights(features, result.features);
      configs := MergeIncomingConfigs(configs, result.configs);
      assignmentContext := assignmentContext + result.assignmentContext;
    }
    assert featureResults[..|featureResults|] == featureResults;
    merged := FeatureData(features, assignmentContext, configs);
  }

  /** Merging two runs of configs one after the other is merging their concatenation. */
  lemma {:induction false} MergeConfigsConcat(acc: seq<ConfigData>, xs: seq<ConfigData>, ys: seq<ConfigData>)
    ensures MergeConfigs(acc, xs + ys) == MergeConfigs(MergeConfigs(acc, xs), ys)
    decreases |ys|
  {
    if ys == [] {
      assert xs + ys == xs;
    } else {
      var n := |ys|;
      assert (xs + ys)[..|xs + ys| - 1] == xs + ys[..n - 1];
      assert (xs + ys)[|xs + ys| - 1] == ys[n - 1];
      MergeConfigsConcat(acc, xs, ys[..n - 1]);
    }
  }

  /** A flight is in the round's flat flight list iff some result lists it. */
  lemma {:induction false} AllFlightsContains(rs: seq<FeatureData>, x: string)
    ensures x in AllFlights(rs) <==> exists i :: 0 <= i < |rs| && x in rs[i].features
    decreases |rs|
  {
    if rs != [] {
      var n := |rs|;
      AllFlightsContains(rs[..n - 1], x);
      assert forall i :: 0 <= i < n - 1 ==> rs[..n - 1][i] == rs[i];
    }
  }

  /**
   * The merged flights: no flight twice, exactly the flights some provider
   * returned, and in first-seen order over the providers in registration order.
   */
  lemma MergedFlights(rs: seq<FeatureData>, x: string)
    ensures NoDup(Merge(rs).features)
    ensures x in Merge(rs).features <==> exists i :: 0 <= i < |rs| && x in rs[i].features
    ensures var fs := Merge(rs).features;
      forall i, j :: 0 <= i < j < |fs| ==> FirstIndex(AllFlights(rs), fs[i]) < FirstIndex(AllFlights(rs), fs[j])
  {
    AppendNewContains([], AllFlights(rs), x);
    AllFlightsContains(rs, x);
    AppendNewFirstSeenOrder(AllFlights(rs));
  }

  /** The merged Ids are the incoming Ids deduplicated in first-seen order. */
  lemma {:induction false} MergeConfigsIds(acc: seq<ConfigData>, cs: seq<ConfigData>)
    ensures Ids(MergeConfigs(acc, cs)) == AppendNew(Ids(acc), Ids(cs))
    decreases |cs|
  {
    if cs != [] {
      MergeConfigsIds(acc, cs[..|cs| - 1]);
      MergeConfigsIdsStep(acc, cs);
    }
  }

  /** One more config: its Id is pushed after the Ids merged so far. */
  lemma MergeConfigsIdsStep(acc: seq<ConfigData>, cs: seq<ConfigData>)
    requires cs != []
    requires Ids(MergeConfigs(acc, cs[..|cs| - 1])) == AppendNew(Ids(acc), Ids(cs[..|cs| - 1]))
    ensures Ids(MergeConfigs(acc, cs)) == AppendNew(Ids(acc), Ids(cs))
  {
    var init, c := cs[..|cs| - 1], cs[|cs| - 1];
    var prev := MergeConfigs(acc, init);
    assert Ids(MergeConfig(prev, c)) == AppendNew(Ids(prev), [c.id]);
    IdsInit(cs);
    AppendNewConcat(Ids(acc), Ids(init), [c.id]);
  }

  /** The Ids of all configs but the last, then the last config's Id. */
  lemma IdsInit(cs: seq<ConfigData>)
    requires cs != []
    ensures Ids(cs) == Ids(cs[..|cs| - 1]) + [cs[|cs| - 1].id]
  {
  }

  /** After a round, no two merged configs share an Id, and every incoming Id is present. */
  lemma MergedConfigIdsUnique(rs: seq<FeatureData>, id: string)
    ensures NoDup(Ids(Merge(rs).configs))
    ensures id in Ids(Merge(rs).configs) <==> id in Ids(AllConfigs(rs))
  {
    MergeConfigsIds([], AllConfigs(rs));
    AppendNewContains([], Ids(AllConfigs(rs)), id);
  }

  /**
   * One config step, seen through a lookup: the incoming config's variable
   * wins when it has one; every other lookup is unchanged.
   */
  lemma MergeConfigLookup(acc: seq<ConfigData>, c: ConfigData, id: string, k: string)
    requires UniqueKeys(c.parameters)
    ensures Lookup(MergeConfig(acc, c), id, k) ==
      if c.id == id && LastValue(c.parameters, k).Some? then LastValue(c.parameters, k) else Lookup(acc, id, k)
  {
    var r := MergeConfig(acc, c);
    assert [c.id][..0] == [];
    if c.id in Ids(acc) {
      var i := FirstIndex(Ids(acc), c.id);
      assert Ids(r) == Ids(acc);
      SetAllGet(acc[i].parameters, c.parameters, k);
      if id in Ids(acc) && id != c.id {
        assert FirstIndex(Ids(acc), id) != i;
      }
    } else {
      assert Ids(r) == Ids(acc) + [c.id];
      UniqueGetIsLast(c.parameters, k);
      if id in Ids(r) {
        FirstIndexAppend(Ids(acc), c.id, id);
      }
    }
  }

  /**
   * A run of configs, seen through a lookup: the last incoming config with the
   * Id that has the variable wins; otherwise the accumulator's value stays.
   */
  lemma {:induction false} MergeConfigsLookup(acc: seq<ConfigData>, cs: seq<ConfigData>, id: string, k: string)
    requires WellFormedConfigs(cs)
    ensures Lookup(MergeConfigs(acc, cs), id, k) ==
      if LastValue(ParamsOf(cs, id), k).Some? then LastValue(ParamsOf(cs, id), k) else Lookup(acc, id, k)
    decreases |cs|
  {
    if cs != [] {
      var n := |cs|;
      var c := cs[n - 1];
      assert WellFormedConfigs(cs[..n - 1]) by {
        assert forall i :: 0 <= i < n - 1 ==> cs[..n - 1][i] == cs[i];
      }
      MergeConfigsLookup(acc, cs[..n - 1], id, k);
      MergeConfigLookup(MergeConfigs(acc, cs[..n - 1]), c, id, k);
      LastValueConcat(ParamsOf(cs[..n - 1], id), if c.id == id then c.parameters else [], k);
    }
  }

  /** Every result of the round is well formed, so the round's config list is too. */
  lemma {:induction false} AllConfigsWellFormed(rs: seq<FeatureData>)
    requires forall i :: 0 <= i < |rs| ==> WellFormedConfigs(rs[i].configs)
    ensures WellFormedConfigs(AllConfigs(rs))
    decreases |rs|
  {
    if rs != [] {
      var n := |rs|;
      assert forall i :: 0 <= i < n - 1 ==> rs[..n - 1][i] == rs[i];
      AllConfigsWellFormed(rs[..n - 1]);
      var prev := AllConfigs(rs[..n - 1]);
      assert AllConfigs(rs) == prev + rs[n - 1].configs;
      assert forall i :: |prev| <= i < |AllConfigs(rs)| ==> AllConfigs(rs)[i] == rs[n - 1].configs[i - |prev|];
    }
  }

  /**
   * A treatment variable of the merged round is the one written last, in
   * provider order, by a config with that Id; it is undefined when no config
   * with that Id has it.
   */
  lemma MergedTreatmentValue(rs: seq<FeatureData>, id: string, k: string)
    requires forall i :: 0 <= i < |rs| ==> WellFormedConfigs(rs[i].configs)
    ensures Lookup(Merge(rs).configs, id, k) == LastValue(ParamsOf(AllConfigs(rs), id), k)
  {
    AllConfigsWellFormed(rs);
    MergeConfigsLookup([], AllConfigs(rs), id, k);
  }
}

=== FILE: ordered_maps.dfy ===
/**
 * Insertion-ordered collections as JavaScript has them.
 *
 * - An array used as a set through `if (!xs.includes(x)) xs.push(x)` is
 *   `AppendNew`.
 * - A `Map` or a plain object is an association list: `Get` finds the first
 *   entry with the key, `Set` overwrites that entry in place or appends a new
 *   one, and `SetAll` is an object spread `{ ...m, ...es }` or a run of
 *   `Map.set` calls.
 */
module OrderedMaps {
  import opened Wrappers

  predicate NoDup<T(==)>(xs: seq<T>) {
    forall i, j :: 0 <= i < j < |xs| ==> xs[i] != xs[j]
  }

  /** `Array.prototype.indexOf`: the position of the first occurrence. */
  function FirstIndex<T(==)>(xs: seq<T>, x: T): (i: nat)
    requires x in xs
    ensures i < |xs| && xs[i] == x && x !in xs[..i]
  {
    if xs[0] == x then 0
    else
      var j := FirstIndex(xs[1..], x);
      assert xs[..j + 1] == [xs[0]] + xs[1..][..j];
      j + 1
  }

  lemma FirstIndexUnique<T>(xs: seq<T>, x: T, i: nat)
    requires i < |xs| && xs[i] == x && x !in xs[..i]
    ensures FirstIndex(xs, x) == i
  {
    var k := FirstIndex(xs, x);
    assert forall j :: 0 <= j < i ==> xs[..i][j] == xs[j];
    assert forall j :: 0 <= j < k ==> xs[..k][j] == xs[j];
  }

  lemma FirstIndexAppend<T>(xs: seq<T>, y: T, z: T)
    requires z in xs + [y]
    ensures FirstIndex(xs + [y], z) == if z in xs then FirstIndex(xs, z) else |xs|
  {
    if z in xs {
      var i := FirstIndex(xs, z);
      assert (xs + [y])[..i] == xs[..i];
      FirstIndexUnique(xs + [y], z, i);
    } else {
      assert (xs + [y])[..|xs|] == xs;
      FirstIndexUnique(xs + [y], z, |xs|);
    }
  }

  /**
   * Pushes each element of `xs`, in order, onto `acc` unless `acc` already
   * includes it.
   */
  function AppendNew<T(==)>(acc: seq<T>, xs: seq<T>): (r: seq<T>)
    ensures |acc| <= |r| && r[..|acc|] == acc
    ensures forall i :: 0 <= i < |r| ==> r[i] in acc || r[i] in xs
    ensures forall i :: 0 <= i < |xs| ==> xs[i] in r
    ensures NoDup(acc) ==> NoDup(r)
    decreases |xs|
  {
    if xs == [] then acc
    else
      var prev := AppendNew(acc, xs[..|xs| - 1]);
      var x := xs[|xs| - 1];
      assert xs == xs[..|xs| - 1] + [x];
      if x in prev then prev else prev + [x]
  }

  /** An element ends up in the result iff it was in the accumulator or in the input. */
  lemma AppendNewContains<T>(acc: seq<T>, xs: seq<T>, x: T)
    ensures x in AppendNew(acc, xs) <==> x in acc || x in xs
  {
    var r := AppendNew(acc, xs);
    forall i | 0 <= i < |acc|
      ensures acc[i] in r
    {
      assert r[i] == acc[i];
    }
  }

  /** Dropping the last element of a concatenation drops it from the second part. */
  lemma DropLastConcat<T>(xs: seq<T>, ys: seq<T>)
    requires ys != []
    ensures (xs + ys)[..|xs + ys| - 1] == xs + ys[..|ys| - 1]
    ensures (xs + ys)[|xs + ys| - 1] == ys[|ys| - 1]
  {
  }

  /** Pushing two runs one after the other is pushing their concatenation. */
  lemma {:induction false} AppendNewConcat<T>(acc: seq<T>, xs: seq<T>, ys: seq<T>)
    ensures AppendNew(acc, xs + ys) == AppendNew(AppendNew(acc, xs), ys)
    decreases |ys|
  {
    if ys == [] {
      assert xs + ys == xs;
    } else {
      var n := |ys|;
      assert (xs + ys)[..|xs + ys| - 1] == xs + ys[..n - 1];
      assert (xs + ys)[|xs + ys| - 1] == ys[n - 1];
      AppendNewConcat(acc, xs, ys[..n - 1]);
    }
  }

  /** Appending an element keeps the relative first-occurrence order of older ones. */
  lemma FirstIndexAppendOrder<T>(init: seq<T>, y: T, a: T, b: T)
    requires a in init
    requires b in init ==> FirstIndex(init, a) < FirstIndex(init, b)
    requires b !in init ==> b == y
    ensures FirstIndex(init + [y], a) < FirstIndex(init + [y], b)
  {
    FirstIndexAppend(init, y, a);
    FirstIndexAppend(init, y, b);
  }

  /**
   * Deduplicating from an empty accumulator keeps first-seen order: an element
   * that comes earlier in the result first occurs earlier in the input.
   */
  lemma {:induction false} AppendNewFirstSeenOrder<T>(xs: seq<T>)
    ensures forall i, j :: 0 <= i < j < |AppendNew([], xs)| ==>
      FirstIndex(xs, AppendNew([], xs)[i]) < FirstIndex(xs, AppendNew([], xs)[j])
    decreases |xs|
  {
    if xs != [] {
      var n := |xs|;
      var init, y := xs[..n - 1], xs[n - 1];
      assert xs == init + [y];
      var prev := AppendNew([], init);
      var r := AppendNew([], xs);
      AppendNewFirstSeenOrder(init);
      assert r == if y in prev then prev else prev + [y];
      forall i, j | 0 <= i < j < |r|
        ensures FirstIndex(init + [y], r[i]) < FirstIndex(init + [y], r[j])
      {
        assert r[i] == prev[i];
        assert prev[i] in init;
        if j < |prev| {
          assert r[j] == prev[j];
          assert FirstIndex(init, prev[i]) < FirstIndex(init, prev[j]);
          FirstIndexAppendOrder(init, y, prev[i], prev[j]);
        } else {
          assert y !in init;
          FirstIndexAppendOrder(init, y, prev[i], y);
        }
      }
    }
  }

  /** The keys of an association list, in order. */
  function Keys<K, V>(m: seq<(K, V)>): (ks: seq<K>)
    ensures |ks| == |m|
    ensures forall i :: 0 <= i < |m| ==> ks[i] == m[i].0
  {
    seq(|m|, i requires 0 <= i < |m| => m[i].0)
  }

  /** A JavaScript `Map` or object never holds the same key twice. */
  predicate UniqueKeys<K(==), V>(m: seq<(K, V)>) {
    NoDup(Keys(m))
  }

  /** `m.get(k)` / `m[k]`: the value of the entry with key `k`, if any. */
  function Get<K(==), V>(m: seq<(K, V)>, k: K): Option<V> {
    if k in Keys(m) then Some(m[FirstIndex(Keys(m), k)].1) else None
  }

  /** `m.set(k, v)` / `m[k] = v`: overwrite in place, or append a new entry. */
  function Set<K(==), V>(m: seq<(K, V)>, k: K, v: V): seq<(K, V)> {
    if k in Keys(m) then m[FirstIndex(Keys(m), k) := (k, v)] else m + [(k, v)]
  }

  /** Writes every entry of `es`, in order, into `m`: `{ ...m, ...es }`. */
  function SetAll<K(==), V>(m: seq<(K, V)>, es: seq<(K, V)>): seq<(K, V)>
    decreases |es|
  {
    if es == [] then m
    else
      var n := |es|;
      Set(SetAll(m, es[..n - 1]), es[n - 1].0, es[n - 1].1)
  }

  /** Spreading two runs one after the other is spreading their concatenation. */
  lemma {:induction false} SetAllConcat<K, V>(m: seq<(K, V)>, xs: seq<(K, V)>, ys: seq<(K, V)>)
    ensures SetAll(m, xs + ys) == SetAll(SetAll(m, xs), ys)
    decreases |ys|
  {
    if ys == [] {
      assert xs + ys == xs;
    } else {
      var n := |ys|;
      assert (xs + ys)[..|xs + ys| - 1] == xs + ys[..n - 1];
      assert (xs + ys)[|xs + ys| - 1] == ys[n - 1];
      SetAllConcat(m, xs, ys[..n - 1]);
    }
  }

  /** The value of the last entry of `es` with key `k`: the last writer. */
  function LastValue<K(==), V>(es: seq<(K, V)>, k: K): Option<V>
    decreases |es|
  {
    if es == [] then None
    else if es[|es| - 1].0 == k then Some(es[|es| - 1].1)
    else LastValue(es[..|es| - 1], k)
  }

  lemma KeysAppend<K, V>(m: seq<(K, V)>, e: (K, V))
    ensures Keys(m + [e]) == Keys(m) + [e.0]
  {
  }

  lemma KeysPrefix<K, V>(m: seq<(K, V)>, n: nat)
    requires n <= |m|
    ensures Keys(m[..n]) == Keys(m)[..n]
  {
  }

  /** Setting a key adds it to the key order only when it is new. */
  lemma SetKeys<K, V>(m: seq<(K, V)>, k: K, v: V)
    ensures Keys(Set(m, k, v)) == AppendNew(Keys(m), [k])
  {
    assert [k][..0] == [];
    if k in Keys(m) {
      var i := FirstIndex(Keys(m), k);
      assert Keys(m[i := (k, v)]) == Keys(m);
    } else {
      KeysAppend(m, (k, v));
    }
  }

  /** After `Set(m, k, v)`, `k` reads `v` and every other key reads as before. */
  lemma GetSet<K, V>(m: seq<(K, V)>, k: K, v: V, j: K)
    ensures Get(Set(m, k, v), j) == if j == k then Some(v) else Get(m, j)
  {
    var ks := Keys(m);
    SetKeys(m, k, v);
    assert [k][..0] == [];
    if k in ks {
      var i := FirstIndex(ks, k);
      assert Keys(Set(m, k, v)) == ks;
      if j in ks && j != k {
        assert FirstIndex(ks, j) != i;
      }
    } else {
      KeysAppend(m, (k, v));
      if j in ks + [k] {
        FirstIndexAppend(ks, k, j);
      }
    }
  }

  /** The key order after a spread: old keys first, then new keys as first seen. */
  lemma {:induction false} SetAllKeys<K, V>(m: seq<(K, V)>, es: seq<(K, V)>)
    ensures Keys(SetAll(m, es)) == AppendNew(Keys(m), Keys(es))
    decreases |es|
  {
    if es != [] {
      var n := |es|;
      SetAllKeys(m, es[..n - 1]);
      SetKeys(SetAll(m, es[..n - 1]), es[n - 1].0, es[n - 1].1);
      KeysInit(es);
      AppendNewConcat(Keys(m), Keys(es[..n - 1]), [es[n - 1].0]);
    }
  }

  /** The keys of all entries but the last, then the last entry's key. */
  lemma KeysInit<K, V>(es: seq<(K, V)>)
    requires es != []
    ensures Keys(es) == Keys(es[..|es| - 1]) + [es[|es| - 1].0]
  {
  }

  /** After a spread, the last writer in `es` wins; keys `es` lacks keep their value. */
  lemma {:induction false} SetAllGet<K, V>(m: seq<(K, V)>, es: seq<(K, V)>, k: K)
    ensures Get(SetAll(m, es), k) == if LastValue(es, k).Some? then LastValue(es, k) else Get(m, k)
    decreases |es|
  {
    if es != [] {
      var n := |es|;
      SetAllGet(m, es[..n - 1], k);
      GetSet(SetAll(m, es[..n - 1]), es[n - 1].0, es[n - 1].1, k);
    }
  }

  /** In a list with unique keys, the first entry with a key is also its last. */
  lemma {:induction false} UniqueGetIsLast<K, V>(m: seq<(K, V)>, k: K)
    requires UniqueKeys(m)
    ensures Get(m, k) == LastValue(m, k)
    decreases |m|
  {
    if m != [] {
      var n := |m|;
      var init, e := m[..n - 1], m[n - 1];
      assert m == init + [e];
      KeysAppend(init, e);
      KeysPrefix(m, n - 1);
      assert UniqueKeys(init);
      UniqueGetIsLast(init, k);
      if k in Keys(m) {
        FirstIndexAppend(Keys(init), e.0, k);
      }
    }
  }

  /** Spreading entries whose keys are all new appends them in order. */
  lemma {:induction false} SetAllFresh<K, V>(m: seq<(K, V)>, es: seq<(K, V)>)
    requires UniqueKeys(m + es)
    ensures SetAll(m, es) == m + es
    decreases |es|
  {
    if es != [] {
      var n := |es|;
      var init, e := es[..n - 1], es[n - 1];
      assert m + es == (m + init) + [e];
      KeysPrefix(m + es, |m + init|);
      assert (m + es)[..|m + init|] == m + init;
      SetAllFresh(m, init);
      assert e.0 !in Keys(m + init) by {
        var ks := Keys(m + es);
        assert forall i :: 0 <= i < |m + init| ==> Keys(m + init)[i] == ks[i] != ks[|m + init|];
      }
      assert Set(m + init, e.0, e.1) == (m + init) + [(e.0, e.1)];
    }
  }

  /** Copying a `Map` with unique keys into an empty object reproduces it. */
  lemma SetAllOntoEmpty<K, V>(m: seq<(K, V)>)
    requires UniqueKeys(m)
    ensures SetAll([], m) == m
  {
    assert [] + m == m;
    SetAllFresh([], m);
  }

  /** Deduplicating a list that has no duplicates leaves it as it is. */
  lemma {:induction false} AppendNewNoDup<T>(acc: seq<T>, xs: seq<T>)
    requires NoDup(acc + xs)
    ensures AppendNew(acc, xs) == acc + xs
    decreases |xs|
  {
    if xs != [] {
      var n := |xs|;
      var full, ys := acc + xs, acc + xs[..n - 1];
      assert full == ys + [xs[n - 1]];
      assert ys == full[..|ys|];
      assert forall i :: 0 <= i < |ys| ==> ys[i] == full[i];
      assert NoDup(ys);
      AppendNewNoDup(acc, xs[..n - 1]);
      assert full[|ys|] == xs[n - 1];
      assert xs[n - 1] !in ys;
    }
  }

  /** A spread into an object keeps its keys unique. */
  lemma SetAllUnique<K, V>(m: seq<(K, V)>, es: seq<(K, V)>)
    requires UniqueKeys(m)
    ensures UniqueKeys(SetAll(m, es))
  {
    SetAllKeys(m, es);
  }

  /** The last writer over a concatenation: the later run wins. */
  lemma {:induction false} LastValueConcat<K, V>(a: seq<(K, V)>, b: seq<(K, V)>, k: K)
    ensures LastValue(a + b, k) == if LastValue(b, k).Some? then LastValue(b, k) else LastValue(a, k)
    decreases |b|
  {
    if b == [] {
      assert a + b == a;
    } else {
      var n := |b|;
      assert (a + b)[..|a + b| - 1] == a + b[..n - 1];
      assert (a + b)[|a + b| - 1] == b[n - 1];
      LastValueConcat(a, b[..n - 1], k);
    }
  }
}

=== FILE: polling_service.dfy ===
/**
 * The polling timer as a handle state machine. The timer runtime is modelled
 * by the set of intervals it is running for this service and the next handle
 * it will hand out; an interval firing is an explicit event.
 */
module Polling {
  import opened Wrappers

  class PollingService<Callback> {
    var intervalHandle: Option<nat>
    var onTick: Option<Callback>
    const fetchInterval: int
    /** The intervals the timer runtime is running for this service. */
    var activeIntervals: set<nat>
    /** The handle `setInterval` returns next; handles are never 0, so always truthy. */
    var nextHandle: nat

    ghost predicate Valid()
      reads this
    {
      && 1 <= nextHandle
      && (forall h :: h in activeIntervals ==> 1 <= h < nextHandle)
      && activeIntervals == (if intervalHandle.Some? then {intervalHandle.value} else {})
      && (intervalHandle.Some? ==> onTick.Some?)
    }

    constructor(fetchInterval: int)
      ensures Valid()
      ensures this.fetchInterval == fetchInterval
      ensures intervalHandle.None? && onTick.None? && activeIntervals == {}
    {
      this.fetchInterval := fetchInterval;
      intervalHandle := None;
      onTick := None;
      activeIntervals := {};
      nextHandle := 1;
    }

    /** `StopPolling`: clear the interval (a no-op without one) and forget the handle. */
    method StopPolling()
      requires Valid()
      modifies this`intervalHandle, this`activeIntervals
      ensures Valid()
      ensures intervalHandle.None? && activeIntervals == {}
    {
      if intervalHandle.Some? {
        activeIntervals := activeIntervals - {intervalHandle.value};
      }
      intervalHandle := None;
    }

    /** `OnPollTick`: replace the callback. */
    method OnPollTick(callback: Callback)
      requires Valid()
      modifies this`onTick
      ensures Valid()
      ensures onTick == Some(callback)
    {
      onTick := Some(callback);
    }

    /**
     * `StartPolling`: clear any running interval, then, when a callback is
     * registered, start one fresh interval. The immediate tick, when asked
     * for, is returned for the caller to run; its outcome is not awaited.
     */
    method StartPolling(pollImmediately: bool) returns (immediateTick: Option<Callback>)
      requires Valid()
      modifies this`intervalHandle, this`activeIntervals, this`nextHandle
      ensures Valid()
      ensures immediateTick == if pollImmediately then onTick else None
      ensures intervalHandle.Some? <==> onTick.Some?
      ensures intervalHandle.Some? ==> intervalHandle.value !in old(activeIntervals) && intervalHandle.value == old(nextHandle)
      ensures activeIntervals == if onTick.Some? then {intervalHandle.value} else {}
      ensures |activeIntervals| <= 1
    {
      if intervalHandle.Some? {
        StopPolling();
      }
      if onTick.None? {
        AtMostOneInterval(this);
        return None;
      }
      immediateTick := if pollImmediately then onTick else None;
      intervalHandle := Some(nextHandle);
      activeIntervals := activeIntervals + {nextHandle};
      nextHandle := nextHandle + 1;
      AtMostOneInterval(this);
    }

    /** The running interval fires: it runs the registered callback. */
    method IntervalElapsed() returns (callback: Callback)
      requires Valid() && intervalHandle.Some?
      ensures onTick == Some(callback)
    {
      callback := onTick.value;
    }
  }

  /** At most one interval is ever active. */
  lemma AtMostOneInterval<C>(p: PollingService<C>)
    requires p.Valid()
    ensures |p.activeIntervals| <= 1
    ensures p.activeIntervals == {} <==> p.intervalHandle.None?
  {
  }
}

=== FILE: scenarios.dfy ===
/**
 * The repository's test scenarios, replayed on the model: the three provider
 * rounds of the multi-provider test, a provider that refetches on every call,
 * a TAS API provider that reports the headers of every fetch, and a polling
 * service constructed over a storage that already holds a flight.
 */
module Scenarios {
  import opened Wrappers
  import opened OrderedMaps
  import opened FeatureTypes
  import opened FeatureMerge
  import opened BaseProvider
  import opened FilteredProvider
  import opened TasApi
  import ServiceBase
  import AutoPolling

  /** The flights and configs of a three-provider round, provider by provider. */
  lemma ThreeResults(rs: seq<FeatureData>)
    requires |rs| == 3
    ensures AllFlights(rs) == rs[0].features + rs[1].features + rs[2].features
    ensures AllConfigs(rs) == rs[0].configs + rs[1].configs + rs[2].configs
  {
    assert rs[..2][..1] == rs[..1];
    assert rs[..1][..0] == [];
    assert AllFlights(rs[..1]) == rs[0].features;
    assert AllFlights(rs[..2]) == rs[0].features + rs[1].features;
    assert AllConfigs(rs[..1]) == rs[0].configs;
    assert AllConfigs(rs[..2]) == rs[0].configs + rs[1].configs;
  }

  /**
   * Three configs with the same Id and disjoint variables merge into one
   * config holding all the variables, in provider order.
   */
  lemma MergeSameIdDisjoint(id: string, p1: Parameters, p2: Parameters, p3: Parameters)
    requires UniqueKeys(p1 + p2 + p3)
    ensures MergeConfigs([], [ConfigData(id, p1), ConfigData(id, p2), ConfigData(id, p3)]) == [ConfigData(id, p1 + p2 + p3)]
  {
    var cs := [ConfigData(id, p1), ConfigData(id, p2), ConfigData(id, p3)];
    assert cs[..2][..1] == cs[..1];
    assert cs[..1][..0] == [];
    assert Ids([]) == [];
    assert MergeConfigs([], cs[..1]) == [ConfigData(id, p1)];
    assert Ids([ConfigData(id, p1)]) == [id];
    assert UniqueKeys(p1 + p2) by {
      KeysPrefix(p1 + p2 + p3, |p1 + p2|);
      assert (p1 + p2 + p3)[..|p1 + p2|] == p1 + p2;
    }
    SetAllFresh(p1, p2);
    assert MergeConfigs([], cs[..2]) == [ConfigData(id, p1 + p2)];
    SetAllFresh(p1 + p2, p3);
  }

  /**
   * The third round of the multi-provider test: every provider sends a `test`
   * config with variables of its own, and the stored configs are one `test`
   * config with all six variables, in provider order.
   */
  lemma ThirdRoundConfigs(rs: seq<FeatureData>, p1: Parameters, p2: Parameters, p3: Parameters)
    requires |rs| == 3
    requires rs[0].configs == [ConfigData("test", p1)] && p1 == [("character1", Str("falco")), ("hp1", Int(30))]
    requires rs[1].configs == [ConfigData("test", p2)] && p2 == [("character2", Str("kirby")), ("isPink", Bool(true))]
    requires rs[2].configs == [ConfigData("test", p3)] && p3 == [("character3", Str("ness")), ("hp3", Int(80))]
    ensures Merge(rs).configs == [ConfigData("test", p1 + p2 + p3)]
  {
    ThreeResults(rs);
    assert AllConfigs(rs) == [ConfigData("test", p1), ConfigData("test", p2), ConfigData("test", p3)];
    ThirdRoundKeysDistinct(p1 + p2 + p3);
    MergeSameIdDisjoint("test", p1, p2, p3);
  }

  lemma ThirdRoundKeysDistinct(ps: Parameters)
    requires ps == [("character1", Str("falco")), ("hp1", Int(30)), ("character2", Str("kirby")),
                    ("isPink", Bool(true)), ("character3", Str("ness")), ("hp3", Int(80))]
    ensures UniqueKeys(ps)
  {
    var ks := Keys(ps);
    assert ks == ["character1", "hp1", "character2", "isPink", "character3", "hp3"];
    assert ks[0][9] == '1' && ks[2][9] == '2' && ks[4][9] == '3';
    assert ks[1][2] == '1' && ks[5][2] == '3';
  }

  /** The flights of the third round: all different, so kept in provider order. */
  lemma ThirdRoundFlights(rs: seq<FeatureData>)
    requires |rs| == 3
    requires rs[0].features == ["falco"] && rs[1].features == ["kirby"]
    requires rs[2].features == ["ness", "mario", "lucario", "ike"]
    ensures Merge(rs).features == ["falco", "kirby", "ness", "mario", "lucario", "ike"]
  {
    ThreeResults(rs);
    var fs := AllFlights(rs);
    assert fs == ["falco", "kirby", "ness", "mario", "lucario", "ike"];
    ThirdRoundFlightsDistinct(fs);
    assert [] + fs == fs;
    AppendNewNoDup([], fs);
  }

  lemma ThirdRoundFlightsDistinct(fs: seq<string>)
    requires fs == ["falco", "kirby", "ness", "mario", "lucario", "ike"]
    ensures NoDup(fs)
  {
  }

  /** Pushing one more flight: kept if new, dropped if already there. */
  lemma PushOne(acc: seq<string>, xs: seq<string>, y: string, pushed: seq<string>)
    requires AppendNew(acc, xs) == pushed
    ensures AppendNew(acc, xs + [y]) == if y in pushed then pushed else pushed + [y]
  {
    assert (xs + [y])[..|xs|] == xs;
  }

  lemma NotInPrefix(u: seq<string>, i: nat)
    requires i < |u| && NoDup(u)
    ensures u[i] !in u[..i] && u[..i] + [u[i]] == u[..i + 1]
  {
  }

  /**
   * The shape of the first round, for any eight different names: the second
   * provider repeats the first name, the third repeats the fifth.
   */
  lemma FirstRoundShape(u: seq<string>)
    requires |u| == 8 && NoDup(u)
    ensures AppendNew([], u[..4] + [u[4], u[0], u[5]] + [u[6], u[7], u[4]]) == u
  {
    var a := u[..5];
    var x1 := a + [u[0]];
    var x2 := x1 + [u[5]];
    var x3 := x2 + [u[6]];
    var x4 := x3 + [u[7]];
    assert u[..4] + [u[4], u[0], u[5]] + [u[6], u[7], u[4]] == x4 + [u[4]];
    assert AppendNew([], a) == a by {
      assert [] + a == a;
      AppendNewNoDup([], a);
    }
    assert AppendNew([], x1) == a by {
      PushOne([], a, u[0], a);
      assert a[0] == u[0];
    }
    assert AppendNew([], x2) == u[..6] by {
      PushOne([], x1, u[5], a);
      NotInPrefix(u, 5);
    }
    assert AppendNew([], x3) == u[..7] by {
      PushOne([], x2, u[6], u[..6]);
      NotInPrefix(u, 6);
    }
    assert AppendNew([], x4) == u by {
      PushOne([], x3, u[7], u[..7]);
      NotInPrefix(u, 7);
      assert u[..8] == u;
    }
    PushOne([], x4, u[4], u);
    assert u[4] in u;
  }

  lemma FirstRoundFlightsDistinct(u: seq<string>)
    requires u == ["kirby", "falco", "fox", "joker", "lucario", "ness", "mario", "kingdedede"]
    ensures NoDup(u)
  {
  }

  /**
   * The first round: ten flights, `kirby` and `lucario` twice, so eight
   * flights, each once, in first-seen order.
   */
  lemma FirstRoundFlights(rs: seq<FeatureData>)
    requires |rs| == 3
    requires rs[0].features == ["kirby", "falco", "fox", "joker"]
    requires rs[1].features == ["lucario", "kirby", "ness"]
    requires rs[2].features == ["mario", "kingdedede", "lucario"]
    ensures Merge(rs).features == ["kirby", "falco", "fox", "joker", "lucario", "ness", "mario", "kingdedede"]
  {
    ThreeResults(rs);
    var u := ["kirby", "falco", "fox", "joker", "lucario", "ness", "mario", "kingdedede"];
    FirstRoundFlightsDistinct(u);
    assert rs[0].features == u[..4];
    FirstRoundShape(u);
  }

  /** A provider holds no cache: three calls run three fetches and return their three values. */
  method ProviderRefetchesEveryCall(f1: Outcome<FeatureData>, f2: Outcome<FeatureData>, f3: Outcome<FeatureData>)
    returns (results: seq<Outcome<FeatureData>>, fetchCalls: nat)
    ensures results == [f1, f2, f3]
    ensures fetchCalls == 3
  {
    var provider := new BaseFeatureProvider();
    var r1 := provider.GetFeatures(f1);
    var r2 := provider.GetFeatures(f2);
    var r3 := provider.GetFeatures(f3);
    results := [r1, r2, r3];
    fetchCalls := provider.fetchCalls;
  }

  /**
   * Each fetch builds a new headers object, so the by-reference check never
   * suppresses a report: two answered fetches with filters post two events.
   */
  method EveryFetchReportsItsHeaders(filterProviders: seq<FilterProvider>, r1: TasResponse, r2: TasResponse)
    returns (posted: seq<TelemetryEvent>)
    requires CombinedFilters(filterProviders) != []
    ensures posted == [HeadersEvent(CombinedFilters(filterProviders)), HeadersEvent(CombinedFilters(filterProviders))]
  {
    var provider := new TasApiFeatureProvider(filterProviders);
    var _, _ := provider.Fetch(Fulfilled(r1));
    var _, _ := provider.Fetch(Fulfilled(r2));
    posted := provider.filtered.postedEvents;
  }

  /**
   * The same two answered fetches through `fetch` as written: its guard never
   * holds, so nothing is posted, however many filters there are.
   */
  method FetchesAsWrittenReportNothing(filterProviders: seq<FilterProvider>, r1: TasResponse, r2: TasResponse)
    returns (posted: seq<TelemetryEvent>)
    ensures posted == []
  {
    var provider := new TasApiFeatureProvider(filterProviders);
    var _, _ := provider.FetchAsWritten(Fulfilled(r1));
    var _, _ := provider.FetchAsWritten(Fulfilled(r2));
    posted := provider.filtered.postedEvents;
  }

  /**
   * A storage holding the flight `initial` under the service's key, and a
   * polling service without polling built over it: the `super` call as
   * written never hands the storage to the base, so the cached flight is not
   * seen; with every argument in its slot it is.
   */
  method CachedFlightSeenOnlyWithStorageHandedOn() returns (asWritten: bool, corrected: bool)
    ensures !asWritten && corrected
  {
    var storage := map[Some("StorageKey") := ServiceBase.StoredFeatureData(["initial"], "", Some([]))];
    var written := new AutoPolling.ExperimentationServiceAutoPolling.AsWritten(
      [], 0, "assignmentContext", "query", Some("StorageKey"), Some(storage));
    asWritten := written.base.IsCachedFlightEnabled("initial");
    var handedOn := new AutoPolling.ExperimentationServiceAutoPolling(
      [], 0, "assignmentContext", "query", Some("StorageKey"), Some(storage));
    corrected := handedOn.base.IsCachedFlightEnabled("initial");
  }
}

=== FILE: service_base.dfy ===
/**
 * The experimentation service's state machine: the in-memory feature snapshot,
 * the consumed flag, the single pending-fetch slot, the one-shot initial-fetch
 * signal, the deduplicated query telemetry and the optional key/value storage.
 *
 * A fetch round is split at its `await`: `BeginFetch` is the synchronous part
 * (it fills the pending slot), `SettleFetch` is the continuation, run when the
 * round's provider promises have settled with the given outcomes.
 */
module ServiceBase {
  import opened Wrappers
  import opened OrderedMaps
  import opened FeatureTypes
  import opened FeatureMerge

  /** The storage key used when none, or an empty one, is given. */
  const DefaultStorageKey := "ABExp.Features"

  /** The property under which a queried flight or treatment key is posted. */
  const QueriedFeatureProperty := "ABExp.queriedFeature"

  /** `if (!this.storageKey) this.storageKey = 'ABExp.Features'`: undefined and '' are falsy. */
  function EffectiveStorageKey(storageKey: Option<string>): (k: string)
    ensures k != ""
    ensures k == DefaultStorageKey || storageKey == Some(k)
    ensures storageKey.Some? && storageKey.value != "" ==> k == storageKey.value
  {
    if storageKey.Some? && storageKey.value != "" then storageKey.value else DefaultStorageKey
  }

  /** An entry read back from storage; entries written by older versions have no configs. */
  datatype StoredFeatureData = StoredFeatureData(features: seq<string>, assignmentContext: string, configs: Option<seq<ConfigData>>)

  /**
   * The contents of the key/value storage, by the key value the service
   * passes: `None` is a key left `undefined`.
   */
  type Storage = map<Option<string>, StoredFeatureData>

  /** The entry `setValue` writes for a snapshot. */
  function Stored(f: FeatureData): StoredFeatureData {
    StoredFeatureData(f.features, f.assignmentContext, Some(f.configs))
  }

  /**
   * The snapshot `loadCachedFeatureData` offers: the stored entry with missing
   * configs defaulted to `[]`, or the empty snapshot when nothing was stored.
   */
  function CachedSnapshot(read: Option<StoredFeatureData>): (f: FeatureData)
    ensures read.None? ==> f == EmptyFeatureData
    ensures read.Some? ==> f.features == read.value.features && f.assignmentContext == read.value.assignmentContext
    ensures read.Some? && read.value.configs.None? ==> f.configs == []
  {
    match read
    case None => EmptyFeatureData
    case Some(s) => FeatureData(s.features, s.assignmentContext, if s.configs.None? then [] else s.configs.value)
  }

  /** Loading back what `updateFeatures` persisted yields the persisted snapshot. */
  lemma CachedSnapshotRestoresStored(f: FeatureData)
    ensures CachedSnapshot(Some(Stored(f))) == f
  {
  }

  /** The storage after `setValue(key, f)`, when there is a storage. */
  function Persisted(storage: Option<Storage>, key: Option<string>, f: FeatureData): (r: Option<Storage>)
    ensures r.Some? <==> storage.Some?
    ensures r.Some? ==> key in r.value && CachedSnapshot(Some(r.value[key])) == f
    ensures r.Some? ==> forall k :: k in storage.value && k != key ==> k in r.value && r.value[k] == storage.value[k]
    ensures r.Some? ==> r.value.Keys == storage.value.Keys + {key}
  {
    if storage.Some? then Some(storage.value[key := Stored(f)]) else None
  }

  /**
   * A service given no key (or `''`) reads its cache under the default key
   * but, once its own parameter property has put the raw key back, writes
   * under the raw one: what it persists is not what the next service built
   * the same way reads.
   */
  lemma RawKeyWriteMissesDefaultRead(storage: Storage, storageKey: Option<string>, f: FeatureData)
    requires storageKey.None? || storageKey == Some("")
    requires Some(DefaultStorageKey) !in storage
    ensures var written := Persisted(Some(storage), storageKey, f).value;
      && storageKey in written && CachedSnapshot(Some(written[storageKey])) == f
      && Some(EffectiveStorageKey(storageKey)) !in written
  {
    var written := Persisted(Some(storage), storageKey, f).value;
    assert EffectiveStorageKey(storageKey) == DefaultStorageKey;
    assert Some(DefaultStorageKey) != storageKey;
    assert written.Keys == storage.Keys + {storageKey};
  }

  /** The shared telemetry properties after the `features` setter publishes `f`. */
  function Published(shared: map<string, string>, featuresName: string, contextName: string, f: FeatureData): (r: map<string, string>)
    ensures contextName in r && r[contextName] == f.assignmentContext
    ensures featuresName in r && (featuresName != contextName ==> r[featuresName] == Join(f.features, ";"))
    ensures forall k :: k in shared && k != featuresName && k != contextName ==> k in r && r[k] == shared[k]
  {
    shared[featuresName := Join(f.features, ";")][contextName := f.assignmentContext]
  }

  /** Publishing twice leaves what the second publication wrote. */
  lemma PublishedOverwrites(shared: map<string, string>, featuresName: string, contextName: string, f: FeatureData, g: FeatureData)
    ensures Published(Published(shared, featuresName, contextName, f), featuresName, contextName, g)
         == Published(shared, featuresName, contextName, g)
  {
    var a := Published(Published(shared, featuresName, contextName, f), featuresName, contextName, g);
    var b := Published(shared, featuresName, contextName, g);
    assert a.Keys == b.Keys;
  }

  /** The event posted the first time `key` is queried. */
  function QueriedEvent(eventName: string, key: string): TelemetryEvent {
    TelemetryEvent(eventName, [(QueriedFeatureProperty, key)])
  }

  /** The events posted for a log of queried keys, one per key, in order. */
  function QueriedEvents(eventName: string, keys: seq<string>): (es: seq<TelemetryEvent>)
    ensures |es| == |keys|
    ensures forall i :: 0 <= i < |keys| ==> es[i] == QueriedEvent(eventName, keys[i])
  {
    seq(|keys|, i requires 0 <= i < |keys| => QueriedEvent(eventName, keys[i]))
  }

  /** A log without repeated keys posts each key's event at most once. */
  lemma QueriedEventsPostedOnce(eventName: string, keys: seq<string>, i: int, j: int)
    requires NoDup(keys)
    requires 0 <= i < |keys| && 0 <= j < |keys|
    requires QueriedEvents(eventName, keys)[i].properties == QueriedEvents(eventName, keys)[j].properties
    ensures i == j
  {
    assert QueriedEvents(eventName, keys)[i].properties[0].1 == keys[i];
  }

  /** The in-memory snapshot after a merge: replaced iff `overrideInMemoryFeatures || !featuresConsumed`. */
  function SnapshotAfter(current: FeatureData, consumed: bool, overrideInMemoryFeatures: bool, merged: FeatureData): (f: FeatureData)
    ensures f == merged || f == current
    ensures f == merged <== overrideInMemoryFeatures || !consumed
    ensures f == current <== consumed && !overrideInMemoryFeatures
  {
    if overrideInMemoryFeatures || !consumed then merged else current
  }

  /** A single pending round: whether it overrides consumed features, and how many providers it asked. */
  datatype PendingFetch = PendingFetch(overrideInMemoryFeatures: bool, providerCount: nat)

  /** How the synchronous part of `getFeaturesAsync` went. */
  datatype FetchStart =
    | Joined       // a round was pending: the caller awaits it
    | NoProviders  // nothing registered: the empty result, and no round
    | Started      // a new round was put in the pending slot

  /**
   * The names and the storage key a service holds once constructed, and the
   * shared properties it set during construction under names it no longer
   * publishes under.
   */
  datatype ServiceConfig = ServiceConfig(
    featuresTelemetryPropertyName: string,
    assignmentContextTelemetryPropertyName: string,
    telemetryEventName: string,
    storageKey: Option<string>,
    otherSharedProperties: map<string, string>)

  /** The part of the service state that fetch rounds read and write. */
  datatype RoundState = RoundState(
    features: FeatureData,
    featuresConsumed: bool,
    sharedProperties: map<string, string>,
    storage: Option<Storage>,
    fetchPromise: Option<PendingFetch>,
    resolveInitialFetchPending: bool,
    initialFetchSignals: nat)

  /**
   * The invariant of a round state: `initialFetch` was resolved once exactly
   * when its resolver is gone, the shared properties show the snapshot once
   * it has been published, and a pending round asked at least one provider.
   */
  predicate Consistent(cfg: ServiceConfig, s: RoundState) {
    && s.initialFetchSignals == (if s.resolveInitialFetchPending then 0 else 1)
    && (s.sharedProperties == cfg.otherSharedProperties ||
        s.sharedProperties == Published(cfg.otherSharedProperties, cfg.featuresTelemetryPropertyName,
                                        cfg.assignmentContextTelemetryPropertyName, s.features))
    && (s.fetchPromise.Some? ==> s.fetchPromise.value.providerCount > 0)
  }

  /** A provider list is set up and not empty. */
  predicate HasProviders(providers: Option<seq<ProviderRef>>) {
    providers.Some? && providers.value != []
  }

  /** The `features` setter: store the snapshot and publish it as shared properties. */
  function Publish(cfg: ServiceConfig, s: RoundState, f: FeatureData): (r: RoundState)
    ensures r.features == f
    ensures Consistent(cfg, s) ==> Consistent(cfg, r)
  {
    PublishedOverwrites(cfg.otherSharedProperties, cfg.featuresTelemetryPropertyName, cfg.assignmentContextTelemetryPropertyName, s.features, f);
    s.(features := f,
       sharedProperties := Published(s.sharedProperties, cfg.featuresTelemetryPropertyName, cfg.assignmentContextTelemetryPropertyName, f))
  }

  /**
   * `updateFeatures` with the merged round: the snapshot is replaced (and
   * published) iff `overrideInMemoryFeatures || !featuresConsumed`, and the
   * merged round is persisted whenever there is a storage.
   */
  function Updated(cfg: ServiceConfig, s: RoundState, merged: FeatureData, overrideInMemoryFeatures: bool): (r: RoundState)
    ensures r.features == SnapshotAfter(s.features, s.featuresConsumed, overrideInMemoryFeatures, merged)
    ensures r.storage == Persisted(s.storage, cfg.storageKey, merged)
    ensures r.(features := s.features, sharedProperties := s.sharedProperties, storage := s.storage) == s
    ensures Consistent(cfg, s) ==> Consistent(cfg, r)
  {
    var t := if overrideInMemoryFeatures || !s.featuresConsumed then Publish(cfg, s, merged) else s;
    t.(storage := Persisted(s.storage, cfg.storageKey, merged))
  }

  /** The pending slot after the synchronous part of `getFeaturesAsync`. */
  function Begun(s: RoundState, providers: Option<seq<ProviderRef>>, overrideInMemoryFeatures: bool): (r: RoundState)
    ensures r.(fetchPromise := s.fetchPromise) == s
    ensures s.fetchPromise.Some? ==> r == s
    ensures s.fetchPromise.None? && HasProviders(providers) ==>
      r.fetchPromise == Some(PendingFetch(overrideInMemoryFeatures, |providers.value|))
    ensures s.fetchPromise.None? && !HasProviders(providers) ==> r == s
  {
    if s.fetchPromise.Some? || !HasProviders(providers) then s
    else s.(fetchPromise := Some(PendingFetch(overrideInMemoryFeatures, |providers.value|)))
  }

  /** How `Begun` classifies the call. */
  function StartKind(s: RoundState, providers: Option<seq<ProviderRef>>): FetchStart {
    if s.fetchPromise.Some? then Joined else if !HasProviders(providers) then NoProviders else Started
  }

  /**
   * The continuation of the pending round: merge and update when every
   * provider fulfilled, clear the slot, and resolve `initialFetch` if it is
   * still unresolved.
   */
  function Settled(cfg: ServiceConfig, s: RoundState, outcomes: seq<Outcome<FeatureData>>): (r: RoundState)
    requires s.fetchPromise.Some?
    ensures r.fetchPromise.None? && !r.resolveInitialFetchPending
    ensures r.featuresConsumed == s.featuresConsumed
    ensures AllFulfilled(outcomes) ==>
      && r.features == SnapshotAfter(s.features, s.featuresConsumed, s.fetchPromise.value.overrideInMemoryFeatures, Merge(Values(outcomes)))
      && r.storage == Persisted(s.storage, cfg.storageKey, Merge(Values(outcomes)))
    ensures !AllFulfilled(outcomes) ==>
      r.features == s.features && r.sharedProperties == s.sharedProperties && r.storage == s.storage
  {
    var applied :=
      if AllFulfilled(outcomes) then Updated(cfg, s, Merge(Values(outcomes)), s.fetchPromise.value.overrideInMemoryFeatures)
      else s;
    applied.(fetchPromise := None,
             resolveInitialFetchPending := false,
             initialFetchSignals := if s.resolveInitialFetchPending then s.initialFetchSignals + 1 else s.initialFetchSignals)
  }

  /**
   * An awaited `getFeaturesAsync`: nothing happens without a round to start
   * or join; otherwise the round it starts or joins settles with `outcomes`.
   */
  function Awaited(cfg: ServiceConfig, s: RoundState, providers: Option<seq<ProviderRef>>,
                   overrideInMemoryFeatures: bool, outcomes: seq<Outcome<FeatureData>>): RoundState
  {
    if s.fetchPromise.None? && !HasProviders(providers) then s
    else Settled(cfg, Begun(s, providers, overrideInMemoryFeatures), outcomes)
  }

  /** Settling keeps the invariant and leaves `initialFetch` resolved exactly once. */
  lemma SettledConsistent(cfg: ServiceConfig, s: RoundState, outcomes: seq<Outcome<FeatureData>>)
    requires Consistent(cfg, s) && s.fetchPromise.Some?
    ensures Consistent(cfg, Settled(cfg, s, outcomes))
    ensures Settled(cfg, s, outcomes).initialFetchSignals == 1
  {
  }

  /** An awaited fetch keeps the invariant. */
  lemma AwaitedConsistent(cfg: ServiceConfig, s: RoundState, providers: Option<seq<ProviderRef>>,
                          overrideInMemoryFeatures: bool, outcomes: seq<Outcome<FeatureData>>)
    requires Consistent(cfg, s)
    ensures Consistent(cfg, Awaited(cfg, s, providers, overrideInMemoryFeatures, outcomes))
  {
    if s.fetchPromise.Some? || HasProviders(providers) {
      SettledConsistent(cfg, Begun(s, providers, overrideInMemoryFeatures), outcomes);
    }
  }

  /**
   * A round without override (a poll tick, or `init`) never replaces a
   * consumed snapshot, yet a fulfilled round is still persisted.
   */
  lemma BackgroundRoundKeepsConsumedSnapshot(cfg: ServiceConfig, s: RoundState, outcomes: seq<Outcome<FeatureData>>)
    requires s.featuresConsumed && s.fetchPromise.Some? && !s.fetchPromise.value.overrideInMemoryFeatures
    ensures Settled(cfg, s, outcomes).features == s.features
    ensures Settled(cfg, s, outcomes).sharedProperties == s.sharedProperties
    ensures AllFulfilled(outcomes) && s.storage.Some? ==>
      CachedSnapshot(Some(Settled(cfg, s, outcomes).storage.value[cfg.storageKey])) == Merge(Values(outcomes))
  {
  }

  /** A round with a rejected provider changes neither the snapshot nor the storage. */
  lemma RejectedRoundKeepsSnapshot(cfg: ServiceConfig, s: RoundState, outcomes: seq<Outcome<FeatureData>>, i: int)
    requires s.fetchPromise.Some? && 0 <= i < |outcomes| && outcomes[i].Rejected?
    ensures Settled(cfg, s, outcomes).features == s.features
    ensures Settled(cfg, s, outcomes).storage == s.storage
    ensures Settled(cfg, s, outcomes).fetchPromise.None?
  {
  }

  /**
   * A caller that finds a round pending joins it: the round settles with the
   * flag it was started with, whatever the caller asked for.
   */
  lemma JoinedRoundKeepsItsFlag(cfg: ServiceConfig, s: RoundState, providers: Option<seq<ProviderRef>>,
                                overrideInMemoryFeatures: bool, outcomes: seq<Outcome<FeatureData>>)
    requires s.fetchPromise.Some?
    ensures Awaited(cfg, s, providers, overrideInMemoryFeatures, outcomes) == Settled(cfg, s, outcomes)
  {
  }

  /** With no round pending and no provider registered, an awaited fetch changes nothing. */
  lemma NoProvidersNoRound(cfg: ServiceConfig, s: RoundState, providers: Option<seq<ProviderRef>>,
                           overrideInMemoryFeatures: bool, outcomes: seq<Outcome<FeatureData>>)
    requires s.fetchPromise.None? && !HasProviders(providers)
    ensures Awaited(cfg, s, providers, overrideInMemoryFeatures, outcomes) == s
    ensures StartKind(s, providers) == NoProviders
  {
  }

  class ExperimentationServiceBase {
    var featureProviders: Option<seq<ProviderRef>>
    var fetchPromise: Option<PendingFetch>
    var featuresConsumed: bool
    /** `loadCachePromise` has not completed yet. */
    var loadCachePending: bool
    /** What `storage.getValue(storageKey)` returned when the load started. */
    const cacheRead: Option<StoredFeatureData>
    /** `resolveInitialFetchPromise` is still set. */
    var resolveInitialFetchPending: bool
    /** How many times `initialFetch` has been resolved. */
    var initialFetchSignals: nat
    var cachedTelemetryEvents: seq<string>
    var features: FeatureData
    const featuresTelemetryPropertyName: string
    const assignmentContextTelemetryPropertyName: string
    const telemetryEventName: string
    const storageKey: Option<string>
    /** Shared properties set during construction under names the service no longer publishes under. */
    const otherSharedProperties: map<string, string>
    var storage: Option<Storage>
    /** The shared properties this service has set on the telemetry sink. */
    var sharedProperties: map<string, string>
    /** The events this service has posted to the telemetry sink, in order. */
    var postedEvents: seq<TelemetryEvent>

    function Config(): ServiceConfig {
      ServiceConfig(featuresTelemetryPropertyName, assignmentContextTelemetryPropertyName, telemetryEventName, storageKey, otherSharedProperties)
    }

    function State(): RoundState
      reads this`features, this`featuresConsumed, this`sharedProperties, this`storage
      reads this`fetchPromise, this`resolveInitialFetchPending, this`initialFetchSignals
    {
      RoundState(features, featuresConsumed, sharedProperties, storage, fetchPromise, resolveInitialFetchPending, initialFetchSignals)
    }

    ghost predicate Valid()
      reads this
    {
      && NoDup(cachedTelemetryEvents)
      && postedEvents == QueriedEvents(telemetryEventName, cachedTelemetryEvents)
      && Consistent(Config(), State())
    }

    /**
     * Construction. With a storage the cache load waits for `getValue`; with
     * none it completes here, so the empty snapshot is published at once.
     */
    constructor(featuresTelemetryPropertyName: string, assignmentContextTelemetryPropertyName: string,
                telemetryEventName: string, storageKey: Option<string>, storage: Option<Storage>)
      ensures Valid()
      ensures Config() == ServiceConfig(featuresTelemetryPropertyName, assignmentContextTelemetryPropertyName,
                                        telemetryEventName, Some(EffectiveStorageKey(storageKey)), map[])
      ensures this.storage == storage
      ensures featureProviders.None? && fetchPromise.None? && !featuresConsumed
      ensures resolveInitialFetchPending && initialFetchSignals == 0
      ensures cachedTelemetryEvents == [] && postedEvents == []
      ensures features == EmptyFeatureData
      ensures loadCachePending <==> storage.Some?
      ensures cacheRead == if storage.Some? && this.storageKey in storage.value then Some(storage.value[this.storageKey]) else None
      ensures sharedProperties ==
        if storage.Some? then map[]
        else Published(map[], featuresTelemetryPropertyName, assignmentContextTelemetryPropertyName, EmptyFeatureData)
    {
      this.featuresTelemetryPropertyName := featuresTelemetryPropertyName;
      this.assignmentContextTelemetryPropertyName := assignmentContextTelemetryPropertyName;
      this.telemetryEventName := telemetryEventName;
      var key := Some(EffectiveStorageKey(storageKey));
      this.storageKey := key;
      otherSharedProperties := map[];
      this.storage := storage;
      featureProviders := None;
      fetchPromise := None;
      featuresConsumed := false;
      resolveInitialFetchPending := true;
      initialFetchSignals := 0;
      cachedTelemetryEvents := [];
      postedEvents := [];
      features := EmptyFeatureData;
      sharedProperties := map[];
      cacheRead := if storage.Some? && key in storage.value then Some(storage.value[key]) else None;
      loadCachePending := true;
      new;
      if storage.None? {
        LoadCachedFeatureData();
      }
    }

    /**
     * Construction by the polling subclass with every argument of its `super`
     * call in its own slot: the base defaults the key, starts the cache load
     * under it, and with no storage publishes the empty snapshot at once;
     * then the subclass's own parameter property puts the raw storage key
     * back, and that is the key `updateFeatures` writes under.
     */
    constructor ForPollingSubclass(assignmentContextTelemetryPropertyName: string, telemetryEventName: string,
                                   storageKey: Option<string>, storage: Option<Storage>)
      ensures Valid()
      ensures Config() == ServiceConfig(assignmentContextTelemetryPropertyName, assignmentContextTelemetryPropertyName,
                                        telemetryEventName, storageKey, map[])
      ensures this.storage == storage
      ensures featureProviders.None? && fetchPromise.None? && !featuresConsumed
      ensures resolveInitialFetchPending && initialFetchSignals == 0
      ensures cachedTelemetryEvents == [] && postedEvents == []
      ensures features == EmptyFeatureData
      ensures loadCachePending <==> storage.Some?
      ensures var readKey := Some(EffectiveStorageKey(storageKey));
        cacheRead == if storage.Some? && readKey in storage.value then Some(storage.value[readKey]) else None
      ensures sharedProperties ==
        if storage.Some? then map[]
        else Published(map[], assignmentContextTelemetryPropertyName, assignmentContextTelemetryPropertyName, EmptyFeatureData)
    {
      featuresTelemetryPropertyName := assignmentContextTelemetryPropertyName;
      this.assignmentContextTelemetryPropertyName := assignmentContextTelemetryPropertyName;
      this.telemetryEventName := telemetryEventName;
      var readKey := Some(EffectiveStorageKey(storageKey));
      this.storageKey := storageKey;
      otherSharedProperties := map[];
      this.storage := storage;
      featureProviders := None;
      fetchPromise := None;
      featuresConsumed := false;
      resolveInitialFetchPending := true;
      initialFetchSignals := 0;
      cachedTelemetryEvents := [];
      postedEvents := [];
      features := EmptyFeatureData;
      sharedProperties := map[];
      cacheRead := if storage.Some? && readKey in storage.value then Some(storage.value[readKey]) else None;
      loadCachePending := true;
      new;
      if storage.None? {
        LoadCachedFeatureData();
      }
    }

    /**
     * Construction as the polling subclass performs it: its `super` call
     * passes one argument too few, so the base sees the assignment-context
     * name as the features name, the event name as the assignment-context
     * name, and no storage. The cache load then completes at once, with
     * nothing read, and publishes the empty snapshot under those two names.
     * Afterwards the subclass's own parameter properties set the names, the
     * raw storage key and the storage; the features name stays the
     * assignment-context name.
     */
    constructor ShiftedByPollingSubclass(assignmentContextTelemetryPropertyName: string, telemetryEventName: string,
                                         storageKey: Option<string>, storage: Option<Storage>)
      ensures Valid()
      ensures Config() == ServiceConfig(assignmentContextTelemetryPropertyName, assignmentContextTelemetryPropertyName,
                                        telemetryEventName, storageKey,
                                        Published(map[], assignmentContextTelemetryPropertyName, telemetryEventName, EmptyFeatureData))
      ensures this.storage == storage
      ensures featureProviders.None? && fetchPromise.None? && !featuresConsumed
      ensures resolveInitialFetchPending && initialFetchSignals == 0
      ensures cachedTelemetryEvents == [] && postedEvents == []
      ensures features == EmptyFeatureData
      ensures !loadCachePending && cacheRead.None?
      ensures sharedProperties == Published(map[], assignmentContextTelemetryPropertyName, telemetryEventName, EmptyFeatureData)
    {
      // What the base constructor leaves: its load found no storage, and the
      // features setter published under the shifted names.
      var shifted := Published(map[], assignmentContextTelemetryPropertyName, telemetryEventName, EmptyFeatureData);
      featuresTelemetryPropertyName := assignmentContextTelemetryPropertyName;
      this.assignmentContextTelemetryPropertyName := assignmentContextTelemetryPropertyName;
      this.telemetryEventName := telemetryEventName;
      this.storageKey := storageKey;
      otherSharedProperties := shifted;
      this.storage := storage;
      featureProviders := None;
      fetchPromise := None;
      featuresConsumed := false;
      resolveInitialFetchPending := true;
      initialFetchSignals := 0;
      cachedTelemetryEvents := [];
      postedEvents := [];
      features := EmptyFeatureData;
      sharedProperties := shifted;
      cacheRead := None;
      loadCachePending := false;
    }

    /** The `features` setter. */
    method SetFeatures(value: FeatureData)
      requires Valid()
      modifies this`features, this`sharedProperties
      ensures Valid()
      ensures State() == Publish(Config(), old(State()), value)
    {
      features := value;
      sharedProperties := sharedProperties[featuresTelemetryPropertyName := Join(value.features, ";")];
      sharedProperties := sharedProperties[assignmentContextTelemetryPropertyName := value.assignmentContext];
    }

    /**
     * The completion of `loadCachedFeatureData`: the cached snapshot replaces
     * the in-memory one only while the in-memory flight list is empty.
     */
    method LoadCachedFeatureData()
      requires Valid() && loadCachePending
      modifies this`loadCachePending, this`features, this`sharedProperties
      ensures Valid() && !loadCachePending
      ensures State() ==
        if |old(features).features| == 0 then Publish(Config(), old(State()), CachedSnapshot(cacheRead)) else old(State())
    {
      var cachedFeatureData: Option<FeatureData> := None;
      if cacheRead.Some? {
        var entry := cacheRead.value;
        var configs := if entry.configs.None? then [] else entry.configs.value;
        cachedFeatureData := Some(FeatureData(entry.features, entry.assignmentContext, configs));
      }
      if |features.features| == 0 {
        SetFeatures(cachedFeatureData.GetOr(EmptyFeatureData));
      }
      loadCachePending := false;
    }

    /**
     * The synchronous part of `getFeaturesAsync`: join a pending round, give
     * up when no provider is registered, or put a new round in the slot.
     */
    method BeginFetch(overrideInMemoryFeatures: bool) returns (start: FetchStart)
      requires Valid()
      modifies this`fetchPromise
      ensures Valid()
      ensures start == StartKind(old(State()), featureProviders)
      ensures State() == Begun(old(State()), featureProviders, overrideInMemoryFeatures)
    {
      if fetchPromise.Some? {
        return Joined;
      }
      if featureProviders.None? || |featureProviders.value| == 0 {
        return NoProviders;
      }
      fetchPromise := Some(PendingFetch(overrideInMemoryFeatures, |featureProviders.value|));
      start := Started;
    }

    /** `updateFeatures`: merge the round's results, then update the snapshot and the storage. */
    method UpdateFeatures(featureResults: seq<FeatureData>, overrideInMemoryFeatures: bool)
      requires Valid()
      modifies this`features, this`sharedProperties, this`storage
      ensures Valid()
      ensures State() == Updated(Config(), old(State()), Merge(featureResults), overrideInMemoryFeatures)
    {
      var merged := MergeResults(featureResults);
      if overrideInMemoryFeatures || !featuresConsumed {
        SetFeatures(merged);
      }
      if storage.Some? {
        storage := Some(storage.value[storageKey := Stored(merged)]);
      }
    }

    /**
     * The continuation of the pending round, once every provider promise has
     * settled: it returns the in-memory snapshot.
     */
    method SettleFetch(outcomes: seq<Outcome<FeatureData>>) returns (result: FeatureData)
      requires Valid() && fetchPromise.Some? && |outcomes| == fetchPromise.value.providerCount
      modifies this`fetchPromise, this`features, this`sharedProperties, this`storage
      modifies this`resolveInitialFetchPending, this`initialFetchSignals
      ensures Valid()
      ensures State() == Settled(Config(), old(State()), outcomes)
      ensures result == features
    {
      SettledConsistent(Config(), State(), outcomes);
      var overrideInMemoryFeatures := fetchPromise.value.overrideInMemoryFeatures;
      if AllFulfilled(outcomes) {
        var featureResults := Values(outcomes);
        UpdateFeatures(featureResults, overrideInMemoryFeatures);
      }
      fetchPromise := None;
      if resolveInitialFetchPending {
        initialFetchSignals := initialFetchSignals + 1;
        resolveInitialFetchPending := false;
      }
      result := features;
    }

    /** `outcomes` has one outcome per provider of the round a fetch would start or join. */
    predicate RoundSized(outcomes: seq<Outcome<FeatureData>>)
      reads this`fetchPromise, this`featureProviders
    {
      && (fetchPromise.Some? ==> |outcomes| == fetchPromise.value.providerCount)
      && (fetchPromise.None? && featureProviders.Some? ==> |outcomes| == |featureProviders.value|)
    }

    /**
     * `getFeaturesAsync` for a caller that awaits it: the round it starts or
     * joins settles with `outcomes`, one per provider of that round.
     */
    method GetFeaturesAsync(overrideInMemoryFeatures: bool, outcomes: seq<Outcome<FeatureData>>) returns (result: FeatureData)
      requires Valid() && RoundSized(outcomes)
      modifies this`fetchPromise, this`features, this`sharedProperties, this`storage
      modifies this`resolveInitialFetchPending, this`initialFetchSignals
      ensures Valid()
      ensures State() == Awaited(Config(), old(State()), featureProviders, overrideInMemoryFeatures, outcomes)
      ensures result == if old(fetchPromise).None? && !HasProviders(featureProviders) then EmptyFeatureData else features
    {
      var start := BeginFetch(overrideInMemoryFeatures);
      if start == NoProviders {
        return EmptyFeatureData;
      }
      result := SettleFetch(outcomes);
    }

    /** `PostEventToTelemetry`: post the key's event unless it was posted before. */
    method PostEventToTelemetry(flight: string)
      requires Valid()
      modifies this`cachedTelemetryEvents, this`postedEvents
      ensures Valid()
      ensures cachedTelemetryEvents == AppendNew(old(cachedTelemetryEvents), [flight])
      ensures postedEvents ==
        if flight in old(cachedTelemetryEvents) then old(postedEvents)
        else old(postedEvents) + [QueriedEvent(telemetryEventName, flight)]
    {
      assert [flight][..0] == [];
      if flight in cachedTelemetryEvents {
        return;
      }
      postedEvents := postedEvents + [QueriedEvent(telemetryEventName, flight)];
      cachedTelemetryEvents := cachedTelemetryEvents + [flight];
    }

    /** `isFlightEnabled`: whether the in-memory snapshot lists the flight. */
    method IsFlightEnabled(flight: string) returns (enabled: bool)
      requires Valid()
      modifies this`featuresConsumed, this`cachedTelemetryEvents, this`postedEvents
      ensures Valid() && featuresConsumed
      ensures enabled <==> flight in features.features
      ensures cachedTelemetryEvents == AppendNew(old(cachedTelemetryEvents), [flight])
    {
      featuresConsumed := true;
      PostEventToTelemetry(flight);
      enabled := flight in features.features;
    }

    /** `isCachedFlightEnabled`: as `isFlightEnabled`, once the cache load has completed. */
    method IsCachedFlightEnabled(flight: string) returns (enabled: bool)
      requires Valid()
      modifies this`loadCachePending, this`features, this`sharedProperties
      modifies this`featuresConsumed, this`cachedTelemetryEvents, this`postedEvents
      ensures Valid() && featuresConsumed && !loadCachePending
      ensures features ==
        if old(loadCachePending) && |old(features).features| == 0 then CachedSnapshot(cacheRead) else old(features)
      ensures enabled <==> flight in features.features
      ensures cachedTelemetryEvents == AppendNew(old(cachedTelemetryEvents), [flight])
    {
      if loadCachePending {
        LoadCachedFeatureData();
      }
      featuresConsumed := true;
      PostEventToTelemetry(flight);
      enabled := flight in features.features;
    }

    /** `getTreatmentVariable`: the variable of the first in-memory config with the Id, or undefined. */
    method GetTreatmentVariable(configId: string, name: string) returns (value: Option<Value>)
      requires Valid()
      modifies this`featuresConsumed, this`cachedTelemetryEvents, this`postedEvents
      ensures Valid() && featuresConsumed
      ensures value == Lookup(features.configs, configId, name)
      ensures cachedTelemetryEvents == AppendNew(old(cachedTelemetryEvents), [TreatmentKey(configId, name)])
    {
      featuresConsumed := true;
      PostEventToTelemetry(TreatmentKey(configId, name));
      var config := FindConfig(features.configs, configId);
      value := if config.Some? then Get(config.value.parameters, name) else None;
    }

    /** `addFeatureProvider`: append the providers, unless the provider list was never set up. */
    method AddFeatureProvider(providers: seq<ProviderRef>)
      modifies this`featureProviders
      ensures featureProviders == if old(featureProviders).None? then None else Some(old(featureProviders).value + providers)
    {
      if featureProviders.None? {
        return;
      }
      ghost var registered := featureProviders.value;
      assert registered + providers[..0] == registered;
      for i := 0 to |providers|
        invariant featureProviders == Some(registered + providers[..i])
      {
        assert registered + providers[..i + 1] == registered + providers[..i] + [providers[i]];
        featureProviders := Some(featureProviders.value + [providers[i]]);
      }
      assert providers[..|providers|] == providers;
    }
  }
}

=== FILE: tas_api_feature_provider.dfy ===
/**
 * The TAS API provider's `fetch`: it turns the combined filters into request
 * headers, reports the headers to telemetry, and derives the feature list
 * from the treatment variables of the configs the service answers with. The
 * HTTP answer is an input: a response, or a rejection that propagates.
 */
module TasApi {
  import opened Wrappers
  import opened OrderedMaps
  import opened FeatureTypes
  import opened BaseProvider
  import opened FilteredProvider

  /** A config as the service sends it: `Parameters` may be missing. */
  datatype RawConfig = RawConfig(id: string, parameters: Option<Parameters>)

  /** The part of the service's answer `fetch` reads. */
  datatype TasResponse = TasResponse(configs: seq<RawConfig>, assignmentContext: string)

  /** The feature a treatment variable yields: its key, with `cf` appended when its value is falsy. */
  function FeatureName(key: string, value: Value): string {
    key + (if Truthy(value) then "" else "cf")
  }

  /** The feature names one config yields, in key order; none without `Parameters`. */
  function ConfigFeatureNames(c: RawConfig): (names: seq<string>)
    ensures c.parameters.None? ==> names == []
    ensures c.parameters.Some? ==> |names| == |c.parameters.value|
  {
    match c.parameters
    case None => []
    case Some(ps) => seq(|ps|, i requires 0 <= i < |ps| => FeatureName(ps[i].0, ps[i].1))
  }

  /** The feature names of all configs, in order, repeats kept. */
  function FeatureNames(configs: seq<RawConfig>): seq<string>
    decreases |configs|
  {
    if configs == [] then []
    else FeatureNames(configs[..|configs| - 1]) + ConfigFeatureNames(configs[|configs| - 1])
  }

  /** The feature list `fetch` returns: the names, each kept at its first appearance. */
  function DerivedFeatures(configs: seq<RawConfig>): seq<string> {
    AppendNew([], FeatureNames(configs))
  }

  /** The configs passed on; a config without `Parameters` carries an empty object. */
  function PassedConfigs(configs: seq<RawConfig>): (cs: seq<ConfigData>)
    ensures |cs| == |configs|
    ensures forall i :: 0 <= i < |configs| ==> cs[i].id == configs[i].id
    ensures forall i :: 0 <= i < |configs| && configs[i].parameters.Some? ==>
      cs[i].parameters == configs[i].parameters.value
  {
    seq(|configs|, i requires 0 <= i < |configs| => ConfigData(configs[i].id, configs[i].parameters.GetOr([])))
  }

  /** What `fetch` resolves to: the derived features, the passed-through context and configs. */
  function FetchResult(response: Outcome<TasResponse>): Outcome<FeatureData> {
    match response
    case Rejected => Rejected
    case Fulfilled(data) =>
      Fulfilled(FeatureData(DerivedFeatures(data.configs), data.assignmentContext, PassedConfigs(data.configs)))
  }

  /** A config yields exactly the names of its treatment variables. */
  lemma ConfigFeatureNamesMember(c: RawConfig, name: string)
    ensures name in ConfigFeatureNames(c) <==>
      c.parameters.Some? &&
      (exists j :: 0 <= j < |c.parameters.value| && name == FeatureName(c.parameters.value[j].0, c.parameters.value[j].1))
  {
    if c.parameters.Some? {
      var ps, names := c.parameters.value, ConfigFeatureNames(c);
      assert forall j :: 0 <= j < |ps| ==> names[j] == FeatureName(ps[j].0, ps[j].1);
    }
  }

  lemma {:induction false} FeatureNamesMember(configs: seq<RawConfig>, name: string)
    ensures name in FeatureNames(configs) <==>
      exists i :: 0 <= i < |configs| && name in ConfigFeatureNames(configs[i])
    decreases |configs|
  {
    if configs != [] {
      var n := |configs|;
      var init := configs[..n - 1];
      FeatureNamesMember(init, name);
      assert forall i :: 0 <= i < n - 1 ==> init[i] == configs[i];
    }
  }

  /**
   * The derived list has each name once, in first-appearance order, and holds
   * exactly the names the configs yield.
   */
  lemma DerivedFeaturesSpec(configs: seq<RawConfig>, name: string)
    ensures NoDup(DerivedFeatures(configs))
    ensures forall i, j :: 0 <= i < j < |DerivedFeatures(configs)| ==>
      FirstIndex(FeatureNames(configs), DerivedFeatures(configs)[i]) <
      FirstIndex(FeatureNames(configs), DerivedFeatures(configs)[j])
    ensures name in DerivedFeatures(configs) <==>
      exists i :: 0 <= i < |configs| && name in ConfigFeatureNames(configs[i])
  {
    AppendNewFirstSeenOrder(FeatureNames(configs));
    AppendNewContains([], FeatureNames(configs), name);
    FeatureNamesMember(configs, name);
  }

  /** The names of two runs of configs are the names of the first, then those of the second. */
  lemma {:induction false} FeatureNamesConcat(xs: seq<RawConfig>, ys: seq<RawConfig>)
    ensures FeatureNames(xs + ys) == FeatureNames(xs) + FeatureNames(ys)
    decreases |ys|
  {
    if ys == [] {
      assert xs + ys == xs;
    } else {
      var n := |ys|;
      FeatureNamesConcat(xs, ys[..n - 1]);
      DropLastConcat(xs, ys);
    }
  }

  /** A config without `Parameters`, wherever it stands, adds no feature name. */
  lemma FeatureNamesIgnoring(before: seq<RawConfig>, id: string, after: seq<RawConfig>)
    ensures FeatureNames(before + [RawConfig(id, None)] + after) == FeatureNames(before + after)
  {
    var p := [RawConfig(id, None)];
    assert p[..0] == [];
    assert FeatureNames(p) == [];
    FeatureNamesConcat(before + p, after);
    FeatureNamesConcat(before, p);
    FeatureNamesConcat(before, after);
  }

  /** A config without `Parameters`, wherever it stands, adds no feature. */
  lemma ParameterlessConfigIgnored(before: seq<RawConfig>, id: string, after: seq<RawConfig>)
    ensures DerivedFeatures(before + [RawConfig(id, None)] + after) == DerivedFeatures(before + after)
  {
    FeatureNamesIgnoring(before, id, after);
  }

  /**
   * The guard as written, `filters.keys.length > 0`: it reads the declared
   * arity of `Map.prototype.keys`, which is 0, whatever the filters are.
   */
  const MapKeysMethodLength := 0

  predicate ReportsHeadersAsWritten(filters: seq<(string, Value)>) {
    MapKeysMethodLength > 0
  }

  /** The guard as intended: at least one filter. */
  predicate ReportsHeaders(filters: seq<(string, Value)>) {
    |filters| > 0
  }

  /** Which guard decides whether `fetch` reports its headers. */
  datatype HeadersGuard =
    | KeysMethodLengthGuard  // as written: `filters.keys.length > 0`
    | SizeGuard              // as intended: `filters.size > 0`

  predicate Reports(guard: HeadersGuard, filters: seq<(string, Value)>) {
    match guard
    case KeysMethodLengthGuard => ReportsHeadersAsWritten(filters)
    case SizeGuard => ReportsHeaders(filters)
  }

  /** With two filters set, the guard as written still does not report them; the intended one does. */
  lemma GuardAsWrittenMissesFilters(filters: seq<(string, Value)>)
    requires filters == [("lucario", Bool(true)), ("wario", Bool(false))]
    ensures !ReportsHeadersAsWritten(filters)
    ensures ReportsHeaders(filters)
  {
  }

  /** The guard as written never holds: `fetch` never reports headers. */
  lemma GuardAsWrittenNeverHolds(filters: seq<(string, Value)>)
    ensures !ReportsHeadersAsWritten(filters)
    ensures ReportsHeadersAsWritten(filters) != ReportsHeaders(filters) <==> filters != []
  {
  }

  /** Copying the combined filters into an empty object gives them back as they are. */
  lemma HeadersAreFilters(providers: seq<FilterProvider>)
    ensures SetAll([], CombinedFilters(providers)) == CombinedFilters(providers)
  {
    CombinedFiltersKeys(providers, "");
    SetAllOntoEmpty(CombinedFilters(providers));
  }

  /** The request headers: a fresh object, each filter assigned in turn. */
  method BuildHeaders(filters: seq<(string, Value)>) returns (headers: Headers)
    ensures fresh(headers)
    ensures headers.entries == SetAll([], filters)
  {
    headers := new Headers();
    for i := 0 to |filters|
      invariant fresh(headers)
      invariant headers.entries == SetAll([], filters[..i])
    {
      assert filters[..i + 1][..i] == filters[..i];
      headers.Assign(filters[i].0, filters[i].1);
    }
    assert filters[..|filters|] == filters;
  }

  /** One config's names, each pushed unless already included. */
  method PushConfigFeatures(features: seq<string>, c: RawConfig) returns (r: seq<string>)
    requires c.parameters.Some?
    ensures r == AppendNew(features, ConfigFeatureNames(c))
  {
    var ps := c.parameters.value;
    ghost var names := ConfigFeatureNames(c);
    r := features;
    for j := 0 to |ps|
      invariant r == AppendNew(features, names[..j])
    {
      var featureName := ps[j].0 + (if Truthy(ps[j].1) then "" else "cf");
      assert names[..j + 1][..j] == names[..j] && names[..j + 1][j] == featureName;
      if featureName !in r {
        r := r + [featureName];
      }
    }
    assert names[..|ps|] == names;
  }

  /** The feature list: each config's names pushed unless already included. */
  method DeriveFeatures(configs: seq<RawConfig>) returns (features: seq<string>)
    ensures features == DerivedFeatures(configs)
  {
    features := [];
    for i := 0 to |configs|
      invariant features == DerivedFeatures(configs[..i])
    {
      assert configs[..i + 1][..i] == configs[..i];
      var c := configs[i];
      assert FeatureNames(configs[..i + 1]) == FeatureNames(configs[..i]) + ConfigFeatureNames(c);
      if c.parameters.None? {
        assert FeatureNames(configs[..i]) + [] == FeatureNames(configs[..i]);
        continue;
      }
      AppendNewConcat([], FeatureNames(configs[..i]), ConfigFeatureNames(c));
      features := PushConfigFeatures(features, c);
    }
    assert configs[..|configs|] == configs;
  }

  class TasApiFeatureProvider {
    const filtered: FilteredFeatureProvider

    ghost predicate Valid()
      reads this, filtered, filtered.base, filtered.cachedTelemetryEvents
    {
      filtered.Valid()
    }

    constructor(filterProviders: seq<FilterProvider>)
      ensures Valid() && fresh(filtered) && fresh(filtered.base)
      ensures filtered.filterProviders == filterProviders
      ensures filtered.cachedTelemetryEvents == [] && filtered.postedEvents == []
      ensures filtered.base.fetchPromise.None? && filtered.base.fetchCalls == 0
    {
      filtered := new FilteredFeatureProvider(filterProviders);
    }

    /**
     * `fetch` with the reporting guard given: build a fresh headers object
     * from the filters, await the response (a rejection propagates), report
     * the headers when the guard holds, and derive the features.
     */
    method FetchGuarded(response: Outcome<TasResponse>, guard: HeadersGuard) returns (headers: Headers, result: Outcome<FeatureData>)
      requires Valid()
      modifies filtered`cachedTelemetryEvents, filtered`postedEvents
      ensures Valid() && fresh(headers)
      ensures headers.entries == CombinedFilters(filtered.filterProviders)
      ensures result == FetchResult(response)
      ensures response.Fulfilled? && Reports(guard, headers.entries) ==>
        && filtered.cachedTelemetryEvents == old(filtered.cachedTelemetryEvents) + [headers]
        && filtered.postedEvents == old(filtered.postedEvents) + [HeadersEvent(headers.entries)]
      ensures !(response.Fulfilled? && Reports(guard, headers.entries)) ==>
        && filtered.cachedTelemetryEvents == old(filtered.cachedTelemetryEvents)
        && filtered.postedEvents == old(filtered.postedEvents)
    {
      var filters := filtered.GetFilters();
      HeadersAreFilters(filtered.filterProviders);
      headers := BuildHeaders(filters);
      assert headers !in filtered.cachedTelemetryEvents;

      if response.Rejected? {
        return headers, Rejected;
      }

      if Reports(guard, filters) {
        filtered.PostEventToTelemetry(headers);
      }

      var responseData := response.value;
      var features := DeriveFeatures(responseData.configs);
      result := Fulfilled(FeatureData(features, responseData.assignmentContext, PassedConfigs(responseData.configs)));
    }

    /**
     * `fetch` as intended: an answered fetch with at least one filter posts
     * its fresh headers once.
     */
    method Fetch(response: Outcome<TasResponse>) returns (headers: Headers, result: Outcome<FeatureData>)
      requires Valid()
      modifies filtered`cachedTelemetryEvents, filtered`postedEvents
      ensures Valid() && fresh(headers)
      ensures headers.entries == CombinedFilters(filtered.filterProviders)
      ensures result == FetchResult(response)
      ensures response.Fulfilled? && ReportsHeaders(headers.entries) ==>
        && filtered.cachedTelemetryEvents == old(filtered.cachedTelemetryEvents) + [headers]
        && filtered.postedEvents == old(filtered.postedEvents) + [HeadersEvent(headers.entries)]
      ensures !(response.Fulfilled? && ReportsHeaders(headers.entries)) ==>
        && filtered.cachedTelemetryEvents == old(filtered.cachedTelemetryEvents)
        && filtered.postedEvents == old(filtered.postedEvents)
    {
      headers, result := FetchGuarded(response, SizeGuard);
    }

    /**
     * `fetch` as written, with the guard `filters.keys.length > 0`: whatever
     * the filters and the response, it never reports the headers.
     */
    method FetchAsWritten(response: Outcome<TasResponse>) returns (headers: Headers, result: Outcome<FeatureData>)
      requires Valid()
      modifies filtered`cachedTelemetryEvents, filtered`postedEvents
      ensures Valid() && fresh(headers)
      ensures headers.entries == CombinedFilters(filtered.filterProviders)
      ensures result == FetchResult(response)
      ensures filtered.cachedTelemetryEvents == old(filtered.cachedTelemetryEvents)
      ensures filtered.postedEvents == old(filtered.postedEvents)
    {
      headers, result := FetchGuarded(response, KeysMethodLengthGuard);
      GuardAsWrittenNeverHolds(headers.entries);
    }

    /**
     * `getFeatures` on this provider: the base wrapper around `fetch`, with
     * the guard `fetch` decides by. With the guard as written nothing is ever
     * posted; with the intended one an answered fetch with filters posts its
     * headers once.
     */
    method GetFeatures(response: Outcome<TasResponse>, guard: HeadersGuard) returns (result: Outcome<FeatureData>)
      requires Valid()
      modifies filtered`cachedTelemetryEvents, filtered`postedEvents, filtered.base
      ensures Valid()
      ensures result == FetchResult(response)
      ensures filtered.base.fetchCalls == old(filtered.base.fetchCalls) + 1
      ensures filtered.base.fetchPromise == if response.Rejected? then Some(Rejected) else None
      ensures guard == KeysMethodLengthGuard ==>
        && filtered.cachedTelemetryEvents == old(filtered.cachedTelemetryEvents)
        && filtered.postedEvents == old(filtered.postedEvents)
      ensures response.Fulfilled? && Reports(guard, CombinedFilters(filtered.filterProviders)) ==>
        && |filtered.cachedTelemetryEvents| == |old(filtered.cachedTelemetryEvents)| + 1
        && filtered.cachedTelemetryEvents[..|old(filtered.cachedTelemetryEvents)|] == old(filtered.cachedTelemetryEvents)
        && filtered.postedEvents == old(filtered.postedEvents) + [HeadersEvent(CombinedFilters(filtered.filterProviders))]
      ensures !(response.Fulfilled? && Reports(guard, CombinedFilters(filtered.filterProviders))) ==>
        && filtered.cachedTelemetryEvents == old(filtered.cachedTelemetryEvents)
        && filtered.postedEvents == old(filtered.postedEvents)
    {
      var headers, fetched := FetchGuarded(response, guard);
      if guard == KeysMethodLengthGuard {
        GuardAsWrittenNeverHolds(headers.entries);
      }
      result := filtered.base.GetFeatures(fetched);
    }
  }
}

=== FILE: telemetry_disabled.dfy ===
/**
 * The service the VS Code extension uses when telemetry is off: it never
 * fetches, its promises are already resolved, every flight is off and every
 * treatment variable is undefined.
 */
module TelemetryDisabled {
  import opened Wrappers
  import opened FeatureTypes

  /** `Promise.resolve()`: `initializePromise` and `initialFetch`. */
  const InitializePromise: Outcome<()> := Fulfilled(())
  const InitialFetch: Outcome<()> := Fulfilled(())

  /** `isFlightEnabled`: every flight is off. */
  function IsFlightEnabled(flight: string): bool {
    false
  }

  /** `isCachedFlightEnabled`: already resolved to `false`. */
  function IsCachedFlightEnabled(flight: string): Outcome<bool> {
    Fulfilled(false)
  }

  /** `isFlightEnabledAsync`: already resolved to `false`. */
  function IsFlightEnabledAsync(flight: string): Outcome<bool> {
    Fulfilled(false)
  }

  /** `getTreatmentVariable`: always undefined. */
  function GetTreatmentVariable(configId: string, name: string): Option<Value> {
    None
  }

  /** `getTreatmentVariableAsync`: already resolved to undefined. */
  function GetTreatmentVariableAsync(configId: string, name: string): Outcome<Option<Value>> {
    Fulfilled(None)
  }

  /**
   * The disabled service answers every query as a service holding the empty
   * snapshot `{ features: [], assignmentContext: '', configs: [] }` does: no
   * flight is on, no treatment variable is defined, and the promises are
   * already fulfilled with those answers.
   */
  lemma AnswersAsEmptySnapshot(flight: string, configId: string, name: string)
    ensures IsFlightEnabled(flight) == (flight in EmptyFeatureData.features)
    ensures IsCachedFlightEnabled(flight) == Fulfilled(flight in EmptyFeatureData.features)
    ensures GetTreatmentVariable(configId, name) == Lookup(EmptyFeatureData.configs, configId, name)
    ensures IsFlightEnabledAsync(flight) == Fulfilled(IsFlightEnabled(flight))
    ensures GetTreatmentVariableAsync(configId, name) == Fulfilled(GetTreatmentVariable(configId, name))
  {
  }
}

=== FILE: vscode_filter_provider.dfy ===
/**
 * The VS Code extension's filter provider: a fixed table of filter headers,
 * each answered from the host environment or the extension's own settings,
 * with version strings stripped of a trailing tag such as `-dev`. The values
 * read from the host are inputs.
 */
module VSCodeFilters {
  import opened Wrappers
  import opened OrderedMaps
  import opened FeatureTypes

  /** `[a-zA-Z0-9]`. */
  predicate IsAsciiAlnum(c: char) {
    'a' <= c <= 'z' || 'A' <= c <= 'Z' || '0' <= c <= '9'
  }

  /** The regular expression `/\-[a-zA-Z0-9]+$/` matches `v` starting at `p`. */
  predicate SuffixMatchesAt(v: string, p: int) {
    && 0 <= p < |v| - 1
    && v[p] == '-'
    && forall k :: p < k < |v| ==> IsAsciiAlnum(v[k])
  }

  /** The length of the longest run of letters and digits ending `v`. */
  function AlnumTailLength(v: string): (t: nat)
    ensures t <= |v|
    ensures forall k :: |v| - t <= k < |v| ==> IsAsciiAlnum(v[k])
    ensures t < |v| ==> !IsAsciiAlnum(v[|v| - t - 1])
    decreases |v|
  {
    if v == [] || !IsAsciiAlnum(v[|v| - 1]) then 0
    else AlnumTailLength(v[..|v| - 1]) + 1
  }

  /**
   * `trimVersionSuffix`: `version.split(regex)[0]`, the part before the match
   * when there is one, otherwise the whole string.
   */
  function TrimVersionSuffix(version: string): string {
    var t := AlnumTailLength(version);
    if 0 < t < |version| && version[|version| - t - 1] == '-' then version[..|version| - t - 1]
    else version
  }

  /** The pattern can match at one place only: the hyphen before the letters-and-digits tail. */
  lemma SuffixMatchUnique(v: string, p: int)
    requires SuffixMatchesAt(v, p)
    ensures p == |v| - AlnumTailLength(v) - 1
  {
  }

  /**
   * The trim removes exactly the match of the pattern: with a match at `p`
   * the result is `version[..p]`, without one it is `version` unchanged.
   */
  lemma TrimVersionSuffixSpec(version: string)
    ensures forall p :: SuffixMatchesAt(version, p) ==> TrimVersionSuffix(version) == version[..p]
    ensures (forall p :: !SuffixMatchesAt(version, p)) ==> TrimVersionSuffix(version) == version
  {
    forall p | SuffixMatchesAt(version, p)
      ensures TrimVersionSuffix(version) == version[..p]
    {
      SuffixMatchUnique(version, p);
    }
    var t := AlnumTailLength(version);
    if 0 < t < |version| && version[|version| - t - 1] == '-' {
      assert SuffixMatchesAt(version, |version| - t - 1);
    }
  }

  /**
   * The result is a prefix of the version; when something is removed, it is
   * a hyphen and a non-empty run of letters and digits, with no hyphen after
   * the one removed.
   */
  lemma TrimVersionSuffixRemovesLastSegment(version: string)
    ensures TrimVersionSuffix(version) <= version
    ensures TrimVersionSuffix(version) != version ==>
      var n := |TrimVersionSuffix(version)|;
      && SuffixMatchesAt(version, n)
      && (forall k :: n < k < |version| ==> version[k] != '-')
  {
    var r := TrimVersionSuffix(version);
    if r != version {
      assert SuffixMatchesAt(version, |r|);
    }
  }

  /** "1.2.3-dev" becomes "1.2.3". */
  lemma TrimsDevTag(version: string)
    requires version == "1.2.3-dev"
    ensures TrimVersionSuffix(version) == "1.2.3"
  {
    assert SuffixMatchesAt(version, 5);
    TrimVersionSuffixSpec(version);
    assert version[..5] == "1.2.3";
  }

  /** "1.2.3" has no tag and stays as it is. */
  lemma KeepsUntaggedVersion(version: string)
    requires version == "1.2.3"
    ensures TrimVersionSuffix(version) == "1.2.3"
  {
    TrimVersionSuffixSpec(version);
    forall p | 0 <= p < |version| - 1
      ensures version[p] != '-'
    {
    }
  }

  /** The filters the VS Code experimentation backend knows. */
  datatype Filter =
    | Market
    | CorpNet
    | ApplicationVersion
    | Build
    | ClientId
    | ExtensionName
    | ExtensionVersion
    | Language
    | TargetPopulation

  /** The header name each filter is sent under. */
  function HeaderName(f: Filter): string {
    match f
    case Market => "X-MSEdge-Market"
    case CorpNet => "X-FD-Corpnet"
    case ApplicationVersion => "X-VSCode-AppVersion"
    case Build => "X-VSCode-Build"
    case ClientId => "X-MSEdge-ClientId"
    case ExtensionName => "X-VSCode-ExtensionName"
    case ExtensionVersion => "X-VSCode-ExtensionVersion"
    case Language => "X-VSCode-Language"
    case TargetPopulation => "X-VSCode-TargetPopulation"
  }

  /** `Object.values(Filters)`: the header names in declaration order. */
  const FilterNames: seq<string> := [
    HeaderName(Market), HeaderName(CorpNet), HeaderName(ApplicationVersion), HeaderName(Build),
    HeaderName(ClientId), HeaderName(ExtensionName), HeaderName(ExtensionVersion), HeaderName(Language),
    HeaderName(TargetPopulation)]

  /** The target population of the extension. */
  datatype Population = Team | Internal | Insiders | Public

  function PopulationName(p: Population): string {
    match p
    case Team => "team"
    case Internal => "internal"
    case Insiders => "insider"
    case Public => "public"
  }

  /** What the host reports: its version, application name, machine id and display language. */
  datatype HostEnv = HostEnv(version: string, appName: string, machineId: string, language: string)

  /** The provider's constructor arguments. */
  datatype VSCodeFilterProvider = VSCodeFilterProvider(
    extensionName: string, extensionVersion: string, targetPopulation: Population)

  /** `getFilterValue`: the switch on the header name; the market, corpnet and unknown names answer `''`. */
  function GetFilterValue(p: VSCodeFilterProvider, env: HostEnv, filter: string): string {
    if filter == HeaderName(ApplicationVersion) then TrimVersionSuffix(env.version)
    else if filter == HeaderName(Build) then env.appName
    else if filter == HeaderName(ClientId) then env.machineId
    else if filter == HeaderName(ExtensionName) then p.extensionName
    else if filter == HeaderName(ExtensionVersion) then TrimVersionSuffix(p.extensionVersion)
    else if filter == HeaderName(Language) then env.language
    else if filter == HeaderName(TargetPopulation) then PopulationName(p.targetPopulation)
    else ""
  }

  /** The header names are pairwise different. */
  lemma FilterNamesDistinct()
    ensures NoDup(FilterNames)
  {
  }

  /** The answer to each filter of the table, and to every name outside it. */
  lemma GetFilterValueByFilter(p: VSCodeFilterProvider, env: HostEnv)
    ensures forall filter :: filter !in FilterNames ==> GetFilterValue(p, env, filter) == ""
    ensures GetFilterValue(p, env, HeaderName(Market)) == ""
    ensures GetFilterValue(p, env, HeaderName(CorpNet)) == ""
    ensures GetFilterValue(p, env, HeaderName(ExtensionName)) == p.extensionName
    ensures GetFilterValue(p, env, HeaderName(ExtensionVersion)) == TrimVersionSuffix(p.extensionVersion)
    ensures GetFilterValue(p, env, HeaderName(TargetPopulation)) == PopulationName(p.targetPopulation)
    ensures GetFilterValue(p, env, HeaderName(ApplicationVersion)) == TrimVersionSuffix(env.version)
    ensures GetFilterValue(p, env, HeaderName(Build)) == env.appName
    ensures GetFilterValue(p, env, HeaderName(ClientId)) == env.machineId
    ensures GetFilterValue(p, env, HeaderName(Language)) == env.language
  {
    FilterNamesDistinct();
    assert FilterNames[0] == HeaderName(Market) && FilterNames[1] == HeaderName(CorpNet);
  }

  /** The map `getFilters` builds: one entry per header name, in table order. */
  function FilterTable(p: VSCodeFilterProvider, env: HostEnv): (m: seq<(string, Value)>)
    ensures |m| == |FilterNames|
    ensures forall i :: 0 <= i < |m| ==> m[i] == (FilterNames[i], Str(GetFilterValue(p, env, FilterNames[i])))
  {
    seq(|FilterNames|, i requires 0 <= i < |FilterNames| => (FilterNames[i], Str(GetFilterValue(p, env, FilterNames[i]))))
  }

  /** `getFilters`: a fresh map with every header name set to its value. */
  method GetFilters(p: VSCodeFilterProvider, env: HostEnv) returns (filters: seq<(string, Value)>)
    ensures filters == FilterTable(p, env)
  {
    FilterNamesDistinct();
    filters := [];
    var filterValues := FilterNames;
    for i := 0 to |filterValues|
      invariant filters == FilterTable(p, env)[..i]
    {
      var value := filterValues[i];
      assert value !in Keys(filters) by {
        assert forall k :: 0 <= k < i ==> Keys(filters)[k] == filterValues[k] != value;
      }
      filters := Set(filters, value, Str(GetFilterValue(p, env, value)));
      assert filters == FilterTable(p, env)[..i + 1];
    }
  }

  /** The table has exactly one entry per filter: nine keys, none twice, each read back as its value. */
  lemma FilterTableSpec(p: VSCodeFilterProvider, env: HostEnv, f: Filter)
    ensures |FilterTable(p, env)| == 9
    ensures UniqueKeys(FilterTable(p, env)) && Keys(FilterTable(p, env)) == FilterNames
    ensures Get(FilterTable(p, env), HeaderName(f)) == Some(Str(GetFilterValue(p, env, HeaderName(f))))
  {
    FilterNamesDistinct();
    var m := FilterTable(p, env);
    assert Keys(m) == FilterNames;
    assert HeaderName(f) in FilterNames by {
      match f
      case Market => assert FilterNames[0] == HeaderName(f);
      case CorpNet => assert FilterNames[1] == HeaderName(f);
      case ApplicationVersion => assert FilterNames[2] == HeaderName(f);
      case Build => assert FilterNames[3] == HeaderName(f);
      case ClientId => assert FilterNames[4] == HeaderName(f);
      case ExtensionName => assert FilterNames[5] == HeaderName(f);
      case ExtensionVersion => assert FilterNames[6] == HeaderName(f);
      case Language => assert FilterNames[7] == HeaderName(f);
      case TargetPopulation => assert FilterNames[8] == HeaderName(f);
    }
  }
}

=== FILE: wrappers.dfy ===
/** Small value wrappers shared by the whole model. */
module Wrappers {

  /** A value that may be `undefined`. */
  datatype Option<+T> = None | Some(value: T) {
    function GetOr(default: T): T {
      match this
      case Some(v) => v
      case None => default
    }
  }

  /** The result of an operation that may throw (a construction-time error). */
  datatype Result<+T, +E> = Success(value: T) | Failure(error: E)

  /** How a promise settled: fulfilled with a value, or rejected. */
  datatype Outcome<+T> = Fulfilled(value: T) | Rejected

  /** `Promise.all` succeeds only when every promise fulfilled. */
  predicate AllFulfilled<T>(os: seq<Outcome<T>>) {
    forall i :: 0 <= i < |os| ==> os[i].Fulfilled?
  }

  /** The values of a fully fulfilled `Promise.all`, in input order. */
  function Values<T>(os: seq<Outcome<T>>): (vs: seq<T>)
    requires AllFulfilled(os)
    ensures |vs| == |os|
    ensures forall i :: 0 <= i < |os| ==> os[i] == Fulfilled(vs[i])
  {
    seq(|os|, i requires 0 <= i < |os| => os[i].value)
  }
}
